=== FILE: README.md ===
# Library manager record store, in Dafny

This project models the record-keeping core of a small desktop library
catalogue. Books have eight text columns: ISBN, Title, Author, Publisher, Year,
Signature, Description and Keywords. Three backends keep them:

- `LibraryManager` (module `LibraryManager`): a semicolon-separated file loaded
  into a pandas frame. It can add, update, delete, filter, dry-run an import for
  Signature conflicts, merge an import, and replace the store with an import.
- `DatabaseManager` (module `DatabaseManager`): one SQLite table. Rows carry an
  auto-increment id and the Signature column is `UNIQUE`. It can read all
  rows, add, update, delete, filter and import a tab-separated file.
- `ViewerDataManager` (module `ViewerData`): the read-only tab-separated backend
  of the Books Viewer. It can read all rows, filter and reload.

On top of the backends sit two pieces of the table window, in module
`TableView`, which builds on `TableSort`:

- the status line, and header-click sorting as the editor and the viewer both
  write them;
- the editor's multi-row delete, which turns the selected ISBNs into store
  positions and deletes them from the highest position down.

Shared modules:

- `Wrappers`: `Option` and `Result`.
- `Seqs`: order-preserving selection (`Keep`), subsequences, Python indexing,
  removal by position.
- `Text`: Python's `strip`, ASCII `lower`, `split(',')`, substring search and
  string ordering.
- `Books`: the record, the caller's tuple, the errors, the required header and
  the Signature invariant.
- `Filtering`: the filter criteria, what matching means, and the pandas form of
  the filter as a chain of narrowing passes.

Every mutating operation (add, update, delete and the imports) is a pure
function from the old state to a `Result`, and the store returned on success
is the one the source writes back to its file or table. The reads, filters,
sorts and reloads return plain values, and the editor's multi-row delete
returns a `Deletion`: the store reached and the first failure, if any. A missing cell (pandas NaN, SQL NULL) is `None`.

## Model

| member | source | states |
|---|---|---|
| Books.FromEntry | library_manager.py:49-57 | a stored tuple keeps every field verbatim, except that an empty Signature is stored as missing |
| Books.Sanitize | db_manager.py:52-55 | reading a row back turns every missing column into "" and keeps every present one |
| Books.SanitizeFromEntry | db_manager.py:75-78 | storing a tuple and reading it back gives the tuple again |
| Books.Missing | library_manager.py:147-149 | the columns reported missing are exactly the required columns absent from the header, so none are missing exactly when the header has all eight |
| Books.LookupKey | library_manager.py:74-76 | update looks up by the original ISBN when one is given and non-empty, otherwise by the new ISBN |
| Books.FindByIsbn | library_manager.py:77-80 | the result is the first position whose trimmed ISBN equals the trimmed key; None means no record matches |
| Books.AppendKeepsUnique | db_manager.py:33 | appending a record whose Signature nobody has keeps the "no two records share a present Signature" invariant |
| LibraryManager.AddRecord | library_manager.py:40-61 | fails exactly when the non-empty Signature is already stored, with DuplicateSignature; otherwise appends exactly the one record and leaves the rest as a prefix |
| LibraryManager.UpdateRecord | library_manager.py:63-101 | NotFound when no trimmed ISBN matches the key; fails exactly when another record holds the non-empty new Signature; otherwise the first match is replaced and every other record is unchanged |
| LibraryManager.DeleteRecord | library_manager.py:103-108 | fails exactly for indices outside Python's range; otherwise removes exactly the record at the Python index (negative counts from the end) |
| LibraryManager.CheckImportConflicts | library_manager.py:142-157 | MissingColumns when the header lacks a column; otherwise exactly the trimmed Signatures present both in the store and in the source |
| LibraryManager.ImportCsvMerge | library_manager.py:159-187 | MissingColumns when the header lacks a column; otherwise the result is the store followed by exactly the source rows whose trimmed Signature is missing or not in the store, in source order and with their repeats |
| LibraryManager.MergeCounts | library_manager.py:175-185 | imported plus skipped is the number of source rows |
| LibraryManager.SkippedAreConflicts | library_manager.py:152-155 | a source row with a Signature is skipped by the merge exactly when the dry run reports its trimmed Signature |
| LibraryManager.NoConflictsImportsAll | library_manager.py:172-185 | when the dry run reports nothing, the merge appends the whole source in order |
| LibraryManager.ImportCsv | library_manager.py:189-203 | MissingColumns when the header lacks a column; otherwise the store becomes the source rows exactly |
| LibraryManager.MergeAfterReplaceAddsUnsigned | library_manager.py:172-200 | merging a source into the store that a replacing import of it produced appends only its rows without a Signature, since every present Signature is already known |
| LibraryManager.AddKeepsUnique | library_manager.py:45-47 | a successful add keeps every present Signature unique |
| LibraryManager.UpdateKeepsUnique | library_manager.py:86-89 | a successful update keeps every present Signature unique |
| LibraryManager.DeleteKeepsUnique | library_manager.py:103-108 | a successful delete keeps every present Signature unique |
| LibraryManager.MergeKeepsUnique | library_manager.py:175-180 | a merge keeps Signatures unique when the source has no repeated Signature of its own |
| LibraryManager.MergeAdmitsRepeatsWithinSource | library_manager.py:175-185 | two source rows with the same new Signature are both appended, which breaks uniqueness |
| Filtering.TrimmedTokens | library_manager.py:134-137 | the kept fragments are trimmed and non-empty, and contain no comma when the pieces had none |
| Filtering.KeywordTokens | library_manager.py:134-137 | every keyword fragment is non-empty, has no edge whitespace and contains no comma |
| Filtering.TrimmedTokensAreNonEmptyStrips | library_manager.py:135-137 | the tokens are the strips of the pieces, in order, with the empty strips dropped |
| Filtering.TrimmedTokensMembers | library_manager.py:135-137 | a string is a token exactly when it is the non-empty strip of some piece |
| Filtering.KeywordTokensAreStrippedPieces | library_manager.py:134-137 | the keyword fragments are the non-empty strips of the `split(',')` pieces, in order; a string is a fragment exactly when it is the non-empty strip of some piece |
| Filtering.PassesSelect | library_manager.py:114-130 | the six single-column passes keep exactly the records that each non-empty criterion admits |
| Filtering.ChainIsConjunction | library_manager.py:110-140 | the chain of pandas passes selects, in order, exactly the records matching every criterion and every keyword fragment |
| Filtering.FilterRecords | library_manager.py:110-140 | the result is the records of the store that match every criterion, in store order, each as often as it occurs; so it is a subsequence holding every match and only matches |
| Filtering.NoCriteriaMatchesAll | library_manager.py:114 | the empty filter admits every record |
| Filtering.FilterNothing | library_manager.py:110-140 | filtering with the empty dictionary returns the store unchanged |
| Filtering.KeywordsAreConjunctive | library_manager.py:132-138 | the criterion "x, y" keeps a record exactly when its Keywords contain both x and y, ignoring case |
| DatabaseManager.Empty | db_manager.py:25-37 | a fresh table is empty and satisfies the id and UNIQUE invariants |
| DatabaseManager.Insert | db_manager.py:33 | the INSERT is refused, with IntegrityError, exactly when a row already has the same present Signature; otherwise one row with a fresh id is appended and the invariants are kept |
| DatabaseManager.GetAllRecords | db_manager.py:46-57 | one entry per row in scan order; missing columns read "" and present ones read as stored |
| DatabaseManager.AddRecord | db_manager.py:59-80 | fails exactly when the non-empty Signature is on a row: DuplicateSignature when it is not blank, IntegrityError when it is whitespace only; otherwise one row is appended, with an id above every earlier one, and reads back as the tuple |
| DatabaseManager.FindRowByIsbn | db_manager.py:91-101 | the first row whose ISBN equals the key exactly; None when no row does |
| DatabaseManager.UpdateRecord | db_manager.py:82-121 | NotFound when no ISBN matches; fails exactly when a row with another id has the non-empty new Signature; otherwise only the found row changes and it keeps its id |
| DatabaseManager.UpdateKeepsValid | db_manager.py:106-118 | a successful update keeps ids ordered and Signatures unique |
| DatabaseManager.DeleteRecord | db_manager.py:123-135 | fails exactly for indices outside Python's range; otherwise deletes every row sharing the selected row's ISBN, and keeps every other row in order |
| DatabaseManager.DeleteKeepsValid | db_manager.py:123-135 | a successful delete keeps ids ordered and Signatures unique |
| DatabaseManager.DeleteMissesNullIsbn | db_manager.py:129-133 | a selected row whose ISBN is NULL reads back as "", which matches no NULL, so that row survives its own delete |
| DatabaseManager.FilterRecords | db_manager.py:137-184 | the SQL filter returns the same books, in the same order and with the same repeats, as the pandas filter over the same records, with NULLs shown as "" |
| DatabaseManager.FilterSelectsMatchingRows | db_manager.py:137-184 | the result is an order-preserving subsequence of the sanitized scan, holding every matching row and only matching rows |
| DatabaseManager.CurrentSignatures | db_manager.py:207-208 | exactly the Signatures present in the table |
| DatabaseManager.ImportRows | db_manager.py:213-226 | every source row is counted as imported or skipped; earlier rows stay a prefix; the appended rows are source rows, in source order, none with a known Signature; every known Signature is counted as skipped; the invariants are kept |
| DatabaseManager.PlanAppendsFreshRows | db_manager.py:213-226 | the rows the import plan appends are source rows in source order; none has a known Signature or a Signature already taken, and no two share one |
| DatabaseManager.ImportFollowsPlan | db_manager.py:213-226 | the import loop appends exactly the planned rows, and its skip count is the rows with a known Signature plus the rows the UNIQUE constraint refuses |
| DatabaseManager.ImportedArePlanned | db_manager.py:224 | the imported count is the number of planned rows |
| DatabaseManager.NoSignaturesImportsAll | db_manager.py:213-226 | a source in which no row has a Signature is imported whole, in order, and nothing is skipped |
| DatabaseManager.ImportFromTsv | db_manager.py:192-231 | MissingColumns before touching the table when a column is lacking; otherwise it appends exactly the planned rows, its counts are the planned ones (known Signatures plus UNIQUE refusals as skipped), the existing rows stay a prefix and the invariants are kept |
| ViewerData.LoadData | books-viewer/viewer_data.py:17-25 | a missing or unreadable file gives an empty frame, otherwise the parsed rows |
| ViewerData.GetAllRecords | books-viewer/viewer_data.py:31-33 | one record per row of the frame, in frame order, none added or dropped |
| ViewerData.ReloadShowsFile | books-viewer/viewer_data.py:17-33 | after a reload the viewer shows exactly the file's rows, or nothing for a missing or unreadable file, whatever it showed before; reloading again changes nothing |
| ViewerData.FilterRecords | books-viewer/viewer_data.py:35-64 | the matching records of all records, in order and with their repeats; the empty filter returns them all |
| ViewerData.Reload | books-viewer/viewer_data.py:66-68 | the records become what the file holds now |
| TableSort.Toggle | main.py:231-236 | after a click the clicked column is the sorted one; the same column flips the direction and any other column sorts ascending |
| TableSort.SortRows | main.py:247 | the result is a permutation of the rows, ordered by key in the chosen direction, and rows with equal keys keep their relative order |
| TableSort.SortUniformKeyIsIdentity | books-viewer/common_ui.py:270 | when every row has the same key, sorting in either direction leaves the rows in place |
| TableView.UpdateStatus | books-viewer/common_ui.py:193-206 | the plain total is shown exactly when the displayed count equals the total; otherwise both counts are shown |
| TableView.FilteredStatus | main.py:173-181 | after a filter the status shows the plain total exactly when every record matches |
| TableView.SortByColumn | books-viewer/common_ui.py:251-271 | a click toggles the sort state and re-sorts the rows by lower-cased column text: a permutation, sorted, stable |
| TableView.SortKeepsStatus | main.py:247-248 | sorting never changes the status line |
| TableView.RepeatedClickKeepsTies | main.py:232-247 | two clicks on a column whose rows show equal text leave them in their original order, although the direction is now descending |
| TableView.ResolvePositions | main.py:366-371 | at most one position per selected ISBN, each a valid store position |
| TableView.ResolvedAreFirstMatches | main.py:366-371 | a position is resolved exactly when it is the first trimmed-ISBN match of some selected ISBN |
| TableView.ResolveEachSelection | main.py:366-371 | the resolved positions are, in selection order, the first match of each selected ISBN that matches a record, one per selection, repeats included |
| TableView.SortDescending | main.py:374 | the same positions, largest first |
| TableView.DeleteEach | main.py:374-375 | a run of deletions removes one record per position, or stops at an invalid index |
| TableView.DeleteBooksAsWritten | main.py:366-375 | the delete as written removes one record per resolved position, so one per selected ISBN that matches a record, repeats included |
| TableView.AsWrittenAgreesWhenDistinct | main.py:366-375 | when the selected ISBNs resolve to distinct positions, the delete as written never fails and removes exactly the records at those positions, as the corrected delete does |
| TableView.DuplicateIsbnDeletesNeighbour | main.py:366-375 | with two selected records sharing an ISBN, the delete removes the first one and its unselected neighbour, and keeps the second one |
| TableView.DeleteEachDescending | main.py:373-375 | deleting at strictly decreasing valid positions removes exactly those positions |
| TableView.Positions | main.py:366-371 | the selected positions, each once: exactly the first matches of the selected ISBNs |
| TableView.DeleteBooks | main.py:358-375 | the corrected delete removes each resolved position exactly once and keeps every other record, in order |
| Text.Trim | library_manager.py:136 | the result is empty or has no whitespace at either end |
| Text.TrimRemovesOnlyEdges | library_manager.py:136 | the strip is a slice of the string, and everything before and after that slice is whitespace |
| Text.TrimBlank | library_manager.py:137 | a string strips to empty exactly when it is all whitespace |
| Text.SplitCommas | library_manager.py:134 | at least one piece, no piece contains a comma, and joining the pieces with commas gives back the input |
| Text.SplitJoin | library_manager.py:134 | splitting a comma join of comma-free pieces gives back the pieces |
| Text.LexLeTotal | main.py:247 | Python's string order is total |
| Text.LexLeTrans | main.py:247 | Python's string order is transitive |

## Left out

- Files, SQLite connections, message boxes and the Tk widgets are left out. A load or import is given as its parsed result: a `Source` (header and rows), or `None` for a file that is missing or unreadable.
- Pandas parsing details are left out: type inference and quoting. A missing cell is `None`.
- Filtering.FieldMatches: a missing cell never matches a non-empty criterion. SQL `NULL LIKE` behaves this way. In the pandas backends, `astype(str)` runs before `str.contains`, so a missing cell is the text "nan" (from a file) or "None" (a blank Signature that `add_record` or `update_record` stored as `None`, library_manager.py:55 and 97), and a criterion such as "na" or "on" matches it. The model does not follow that.
- Filtering.FieldMatches: `str.contains` treats the criterion as a regular expression, and SQL `LIKE` treats `%` and `_` as wildcards. Both are modelled as plain substring search, which agrees for criteria without metacharacters. SQLite's `LIKE` ignores ASCII case only, and the model lowers ASCII only for both backends.
- Text.Trim and Text.Lower: whitespace and case are ASCII only. Python also strips and lowers Unicode characters.
- TableView.ColumnKey: a missing cell sorts as "". The editor and the viewer both hold pandas frames, where `str()` makes a missing cell "nan" (or "None" for a Signature the editor stored as `None`), so with missing cells those rows may sort differently.
- Books.FindByIsbn: a missing ISBN never matches. The editor compares `str(...).strip()` of the ISBN cell (library_manager.py:77, main.py:369), so there a missing ISBN reads as "nan" or "None" and a key with that text would match it.
- LibraryManager.ImportCsv: a source is given as parsed rows. The file round trip through `to_csv` and `read_csv` is not the identity (an empty string comes back as NaN), and it is not modelled.
- LibraryManager.ImportCsvMerge: the source returns no counts. The imported/skipped split is stated by `MergeCounts` instead.
- LibraryManager.UpdateRecord: the `index` argument is accepted and ignored by the source, so it is not a parameter.
- LibraryManager.ImportCsv: replacement keeps whatever duplicates the file holds. `MergeKeepsUnique` needs a source without repeated Signatures, and `MergeAdmitsRepeatsWithinSource` shows why.
- The comment at library_manager.py:133 says a row matches any keyword fragment, but the passes require every fragment. The model follows the code (`Filtering.KeywordsAreConjunctive`).
- A second click on a column sorts with `sorted(..., reverse=True)`, which is stable, so rows with equal text keep their order rather than being reversed (`TableView.RepeatedClickKeepsTies`).
- The export serialisers, `time.sleep` pauses, the build script, the book dialogs and the range-selection click handler are not part of this model.
- "Filter never mutates" and "reload changes nothing else" hold by construction: every operation is a pure function of an immutable value.

## Findings

| source | as written | input that shows it | evidently intended | confidence | as-written member | corrected member |
|---|---|---|---|---|---|---|
| main.py:366-375 | each selected ISBN is resolved to the first store position whose trimmed ISBN matches. Two selected records with the same ISBN both resolve to that one position, and after the first deletion the second deletion at that position removes the record that moved into it | store [X(ISBN 1), Z(ISBN 2), Y(ISBN 1)], both ISBN-1 records selected: the result is [Y]. Z was never selected and is deleted; Y was selected and stays | delete each record the selected ISBNs resolve to exactly once, and no other record | not executed | TableView.AsWrittenAgreesWhenDistinct | main.py:366-375 | when the selected ISBNs resolve to distinct positions, the delete as written never fails and removes exactly the records at those positions, as the corrected delete does |
| TableView.DuplicateIsbnDeletesNeighbour | TableView.DeleteBooks |

=== FILE: books.dfy ===
/** The book record shared by all three backends, the user's input tuple,
    the errors the stores raise and the uniqueness invariant on Signature. */
module Books {
  import opened Wrappers
  import opened Seqs
  import opened Text

  /** The eight columns, in file and table order. */
  datatype Column = ISBN | Title | Author | Publisher | Year | Signature | Description | Keywords

  /** A stored cell: `None` is a missing value (pandas NaN/None, SQL NULL). */
  type Cell = Option<string>

  /** One stored book. */
  datatype Record = Record(isbn: Cell, title: Cell, author: Cell, publisher: Cell,
                           year: Cell, signature: Cell, description: Cell, keywords: Cell)

  /** The eight strings a caller passes to add/update (`book_data`); also the
      NULL-free row the relational backend hands back. */
  datatype Entry = Entry(isbn: string, title: string, author: string, publisher: string,
                         year: string, signature: string, description: string, keywords: string)

  /** The store errors; each carries the offending value. */
  datatype Error =
    | DuplicateSignature(signature: string)
    | NotFound(isbn: string)
    | InvalidIndex(index: int)
    | MissingColumns(missing: set<string>)
    | IntegrityError(signature: string)

  /** The header names every import source must carry. */
  const RequiredColumns: set<string> :=
    {"ISBN", "Title", "Author", "Publisher", "Year", "Signature", "Description", "Keywords"}

  /** A whole store of records, in row order. */
  type Store = seq<Record>

  /** A source row whose Signature is present and, once trimmed, among
      `current`: the rows both merging imports skip. */
  predicate KnownSignature(current: set<string>, row: Record)
  {
    row.signature.Some? && Trim(row.signature.value) in current
  }

  /** An import file after parsing: its header and its rows mapped to the eight columns. */
  datatype Source = Source(header: set<string>, rows: seq<Record>)

  function Field(r: Record, c: Column): Cell
  {
    match c
    case ISBN => r.isbn
    case Title => r.title
    case Author => r.author
    case Publisher => r.publisher
    case Year => r.year
    case Signature => r.signature
    case Description => r.description
    case Keywords => r.keywords
  }

  function EntryField(e: Entry, c: Column): string
  {
    match c
    case ISBN => e.isbn
    case Title => e.title
    case Author => e.author
    case Publisher => e.publisher
    case Year => e.year
    case Signature => e.signature
    case Description => e.description
    case Keywords => e.keywords
  }

  /** Python's `signature if signature else None`: an empty Signature is stored as missing. */
  function StoredSignature(signature: string): (c: Cell)
    ensures c.None? <==> signature == ""
    ensures c.Some? ==> c.value == signature
  {
    if signature == "" then None else Some(signature)
  }

  /** The record add/update store for a caller's tuple: every field kept
      verbatim except an empty Signature, which becomes missing. */
  function FromEntry(e: Entry): (r: Record)
    ensures forall c :: c != Signature ==> Field(r, c) == Some(EntryField(e, c))
    ensures r.signature.None? <==> e.signature == ""
    ensures r.signature.Some? ==> r.signature.value == e.signature
  {
    Record(Some(e.isbn), Some(e.title), Some(e.author), Some(e.publisher),
           Some(e.year), StoredSignature(e.signature), Some(e.description), Some(e.keywords))
  }

  /** `'' if val is None else val` on every column. */
  function OrEmpty(c: Cell): string
  {
    match c
    case None => ""
    case Some(v) => v
  }

  /** A stored record as the relational backend returns it: every missing
      value becomes the empty string, every present value is kept. */
  function Sanitize(r: Record): (e: Entry)
    ensures forall c :: Field(r, c).None? ==> EntryField(e, c) == ""
    ensures forall c :: Field(r, c).Some? ==> EntryField(e, c) == Field(r, c).value
  {
    Entry(OrEmpty(r.isbn), OrEmpty(r.title), OrEmpty(r.author), OrEmpty(r.publisher),
          OrEmpty(r.year), OrEmpty(r.signature), OrEmpty(r.description), OrEmpty(r.keywords))
  }

  /** Storing a tuple and reading it back through `Sanitize` gives the tuple back. */
  lemma SanitizeFromEntry(e: Entry)
    ensures Sanitize(FromEntry(e)) == e
  {
  }

  /** The header columns an import source lacks. */
  function Missing(src: Source): (m: set<string>)
    ensures forall c :: c in m <==> c in RequiredColumns && c !in src.header
    ensures m <= RequiredColumns
    ensures m == {} <==> RequiredColumns <= src.header
  {
    var m := RequiredColumns - src.header;
    assert m == {} <==> RequiredColumns <= src.header by {
      if RequiredColumns <= src.header {
        assert forall c :: c !in m;
      }
      if m == {} {
        assert forall c :: c in RequiredColumns ==> c in src.header || c in m;
      }
    }
    m
  }

  /** Two records do not share a present Signature. */
  predicate DistinctSignatures(a: Record, b: Record)
  {
    a.signature.None? || a.signature != b.signature
  }

  /** The invariant on Signature: no two records share a present Signature. */
  ghost predicate UniqueSignatures(s: seq<Record>)
  {
    Pairwise(s, DistinctSignatures)
  }

  /** Appending a record whose Signature no record has keeps the invariant. */
  lemma AppendKeepsUnique(s: seq<Record>, rec: Record)
    requires rec.signature.Some? ==> !HasSignature(s, rec.signature.value)
    ensures UniqueSignatures(s) ==> UniqueSignatures(s + [rec])
  {
  }

  /** Some record carries exactly this Signature. */
  predicate HasSignature(s: seq<Record>, signature: string)
  {
    exists i :: 0 <= i < |s| && s[i].signature == Some(signature)
  }

  /** The key update looks a record up by: `original_isbn` when given and
      non-empty, otherwise the new ISBN. */
  function LookupKey(e: Entry, originalIsbn: Option<string>): (key: string)
    ensures originalIsbn.Some? && originalIsbn.value != "" ==> key == originalIsbn.value
    ensures originalIsbn.None? || originalIsbn.value == "" ==> key == e.isbn
  {
    if originalIsbn.Some? && originalIsbn.value != "" then originalIsbn.value else e.isbn
  }

  /** `str(cell).strip() == str(key).strip()` for a present ISBN cell. */
  predicate IsbnMatches(cell: Cell, key: string)
  {
    cell.Some? && Trim(cell.value) == Trim(key)
  }

  /** The first record whose trimmed ISBN equals the trimmed key. */
  function FindByIsbn(s: seq<Record>, key: string): (r: Option<nat>)
    ensures r.Some? ==> r.value < |s| && IsbnMatches(s[r.value].isbn, key)
    ensures r.Some? ==> forall k :: 0 <= k < r.value ==> !IsbnMatches(s[k].isbn, key)
    ensures r.None? ==> forall k :: 0 <= k < |s| ==> !IsbnMatches(s[k].isbn, key)
  {
    FirstIndex(s, (x: Record) => IsbnMatches(x.isbn, key))
  }
}

=== FILE: db_manager.dfy ===
/** `DatabaseManager`: the single-table relational backend. Rows carry an
    auto-increment surrogate id; the Signature column is UNIQUE (NULLs exempt).
    A scan without ORDER BY is modelled as id order, the order rows were inserted. */
module DatabaseManager {
  import opened Wrappers
  import opened Seqs
  import opened Text
  import opened Books
  import opened Filtering

  /** One table row: its surrogate id and its eight columns. */
  datatype Row = Row(id: nat, rec: Record)

  /** The `books` table and the next id AUTOINCREMENT will hand out. */
  datatype Db = Db(rows: seq<Row>, nextId: nat)

  /** The eight columns of every row, in scan order. */
  function Recs(rows: seq<Row>): (r: seq<Record>)
    ensures |r| == |rows|
    ensures forall i :: 0 <= i < |rows| ==> r[i] == rows[i].rec
  {
    Map((x: Row) => x.rec, rows)
  }

  /** Ids increase along the scan and stay below the next id; the UNIQUE
      constraint holds on Signature. */
  ghost predicate Valid(db: Db)
  {
    && (forall i, j :: 0 <= i < j < |db.rows| ==> db.rows[i].id < db.rows[j].id)
    && (forall i :: 0 <= i < |db.rows| ==> db.rows[i].id < db.nextId)
    && UniqueSignatures(Recs(db.rows))
  }

  /** `init_database` on a fresh file: an empty table; AUTOINCREMENT starts at 1. */
  function Empty(): (db: Db)
    ensures Valid(db) && db.rows == []
  {
    Db([], 1)
  }

  /** The SQL INSERT: a fresh id, refused by the UNIQUE constraint when a row
      already carries the same present Signature. */
  function Insert(db: Db, rec: Record): (r: Result<Db, Error>)
    ensures r.Err? <==> rec.signature.Some? && HasSignature(Recs(db.rows), rec.signature.value)
    ensures r.Err? ==> r.error == IntegrityError(rec.signature.value)
    ensures r.Ok? ==> r.value.rows == db.rows + [Row(db.nextId, rec)] && r.value.nextId == db.nextId + 1
    ensures r.Ok? && Valid(db) ==> Valid(r.value)
  {
    if rec.signature.Some? && HasSignature(Recs(db.rows), rec.signature.value) then
      Err(IntegrityError(rec.signature.value))
    else
      var rows := db.rows + [Row(db.nextId, rec)];
      assert Recs(rows) == Recs(db.rows) + [rec];
      AppendKeepsUnique(Recs(db.rows), rec);
      Ok(Db(rows, db.nextId + 1))
  }

  /** The row as the backend returns it: NULL columns become "". */
  function Fetch(x: Row): Entry
  {
    Sanitize(x.rec)
  }

  /** `get_all_records`: every row in scan order, each NULL column turned into
      the empty string and every other column returned as stored. */
  function GetAllRecords(db: Db): (r: seq<Entry>)
    ensures |r| == |db.rows|
    ensures forall i, c :: 0 <= i < |r| && Field(db.rows[i].rec, c).None? ==> EntryField(r[i], c) == ""
    ensures forall i, c :: 0 <= i < |r| && Field(db.rows[i].rec, c).Some? ==>
              EntryField(r[i], c) == Field(db.rows[i].rec, c).value
  {
    Map(Fetch, db.rows)
  }

  /** `add_record`: fails exactly when the non-empty Signature is already on a
      row. A non-blank one is caught by the explicit check; a whitespace-only
      one reaches the INSERT and is refused by the UNIQUE constraint. On success
      one row with a fresh id is appended, and reading it back gives the tuple. */
  function AddRecord(db: Db, e: Entry): (r: Result<Db, Error>)
    ensures r.Err? <==> e.signature != "" && HasSignature(Recs(db.rows), e.signature)
    ensures r.Err? ==> r.error == (if Trim(e.signature) != "" then DuplicateSignature(e.signature)
                                   else IntegrityError(e.signature))
    ensures r.Ok? ==> |r.value.rows| == |db.rows| + 1 && r.value.rows[..|db.rows|] == db.rows
    ensures r.Ok? ==> r.value.rows[|db.rows|].rec == FromEntry(e)
    ensures r.Ok? && Valid(db) ==> forall k :: 0 <= k < |db.rows| ==> db.rows[k].id < r.value.rows[|db.rows|].id
    ensures r.Ok? ==> GetAllRecords(r.value)[|db.rows|] == e
    ensures r.Ok? && Valid(db) ==> Valid(r.value)
  {
    if Trim(e.signature) != "" && HasSignature(Recs(db.rows), e.signature) then
      Err(DuplicateSignature(e.signature))
    else
      SanitizeFromEntry(e);
      Insert(db, FromEntry(e))
  }

  /** `SELECT id FROM books WHERE ISBN = ?`: the first row, in scan order,
      whose ISBN equals the key exactly (a NULL ISBN never does). */
  function FindRowByIsbn(rows: seq<Row>, key: string): (r: Option<nat>)
    ensures r.Some? ==> r.value < |rows| && rows[r.value].rec.isbn == Some(key)
    ensures r.Some? ==> forall k :: 0 <= k < r.value ==> rows[k].rec.isbn != Some(key)
    ensures r.None? ==> forall k :: 0 <= k < |rows| ==> rows[k].rec.isbn != Some(key)
  {
    FirstIndex(rows, (x: Row) => x.rec.isbn == Some(key))
  }

  /** A row with a different id carries this Signature. */
  predicate SignatureOnOtherRow(rows: seq<Row>, signature: string, id: nat)
  {
    exists j :: 0 <= j < |rows| && rows[j].id != id && rows[j].rec.signature == Some(signature)
  }

  /** `UPDATE books SET ... WHERE id = ?`. */
  function SetById(rows: seq<Row>, id: nat, rec: Record): seq<Row>
  {
    Map((x: Row) => if x.id == id then Row(id, rec) else x, rows)
  }

  /** `update_record`: picks the first row whose ISBN equals the lookup key
      exactly; fails when there is none or when a row with another id has the
      new non-empty Signature; otherwise replaces the eight columns of that row
      only, keeping its id. */
  function UpdateRecord(db: Db, e: Entry, originalIsbn: Option<string>): (r: Result<Db, Error>)
    ensures var key := LookupKey(e, originalIsbn);
      FindRowByIsbn(db.rows, key).None? ==> r == Err(NotFound(key))
    ensures var key := LookupKey(e, originalIsbn);
      FindRowByIsbn(db.rows, key).Some? ==>
        var i := FindRowByIsbn(db.rows, key).value;
        && (r.Err? <==> e.signature != "" && SignatureOnOtherRow(db.rows, e.signature, db.rows[i].id))
        && (r.Err? ==> r.error == (if Trim(e.signature) != "" then DuplicateSignature(e.signature)
                                   else IntegrityError(e.signature)))
        && (r.Ok? && Valid(db) ==>
              && |r.value.rows| == |db.rows|
              && r.value.rows[i] == Row(db.rows[i].id, FromEntry(e))
              && (forall k :: 0 <= k < |db.rows| && k != i ==> r.value.rows[k] == db.rows[k])
              && r.value.nextId == db.nextId)
  {
    var key := LookupKey(e, originalIsbn);
    match FindRowByIsbn(db.rows, key)
    case None => Err(NotFound(key))
    case Some(i) =>
      var id := db.rows[i].id;
      if Trim(e.signature) != "" && SignatureOnOtherRow(db.rows, e.signature, id) then
        Err(DuplicateSignature(e.signature))
      else
        var rec := FromEntry(e);
        if rec.signature.Some? && SignatureOnOtherRow(db.rows, rec.signature.value, id) then
          Err(IntegrityError(rec.signature.value))
        else
          Ok(Db(SetById(db.rows, id, rec), db.nextId))
  }

  /** A successful update keeps ids ordered and the UNIQUE constraint. */
  lemma UpdateKeepsValid(db: Db, e: Entry, originalIsbn: Option<string>)
    requires Valid(db) && UpdateRecord(db, e, originalIsbn).Ok?
    ensures Valid(UpdateRecord(db, e, originalIsbn).value)
  {
  }

  /** The ISBN the Python position selects, as the sanitized scan returns it. */
  function SelectedIsbn(db: Db, p: nat): string
    requires p < |db.rows|
  {
    GetAllRecords(db)[p].isbn
  }

  /** `delete_record`: an index at or past the end, or before the start once
      Python's negative indexing is applied, fails and changes nothing;
      otherwise every row whose ISBN equals the selected row's (sanitized) ISBN
      is deleted, not just one, and every other row stays in order. */
  function DeleteRecord(db: Db, index: int): (r: Result<Db, Error>)
    ensures r.Err? <==> !(-|db.rows| <= index < |db.rows|)
    ensures r.Err? ==> r.error == InvalidIndex(index)
    ensures r.Ok? ==>
      var key := SelectedIsbn(db, PythonIndex(|db.rows|, index).value);
      && Subseq(r.value.rows, db.rows)
      && r.value.nextId == db.nextId
      && (forall k :: 0 <= k < |r.value.rows| ==> r.value.rows[k].rec.isbn != Some(key))
      && (forall k :: 0 <= k < |db.rows| && db.rows[k].rec.isbn != Some(key) ==> db.rows[k] in r.value.rows)
  {
    if index >= |db.rows| then Err(InvalidIndex(index))
    else match PythonIndex(|db.rows|, index)
      case None => Err(InvalidIndex(index))
      case Some(p) =>
        var key := SelectedIsbn(db, p);
        Ok(Db(Keep(db.rows, (x: Row) => x.rec.isbn != Some(key)), db.nextId))
  }

  /** A successful delete keeps ids ordered and the UNIQUE constraint. */
  lemma DeleteKeepsValid(db: Db, index: int)
    requires Valid(db) && DeleteRecord(db, index).Ok?
    ensures Valid(DeleteRecord(db, index).value)
  {
    var t := DeleteRecord(db, index).value;
    SubseqPairwise(t.rows, db.rows, (a: Row, b: Row) => a.id < b.id);
    MapSubseq((x: Row) => x.rec, t.rows, db.rows);
    SubseqPairwise(Recs(t.rows), Recs(db.rows), DistinctSignatures);
    SubseqMembers(t.rows, db.rows);
  }

  /** The selected row keeps a NULL ISBN: it comes back as "", and
      `WHERE ISBN = ''` never matches NULL, so that row survives the delete. */
  lemma DeleteMissesNullIsbn(db: Db, index: int)
    requires 0 <= index < |db.rows| && db.rows[index].rec.isbn.None?
    ensures DeleteRecord(db, index).Ok? && db.rows[index] in DeleteRecord(db, index).value.rows
  {
  }

  /** `filter_records`: the rows where every active criterion and every keyword
      fragment is a case-insensitive substring of the non-NULL column, in scan
      order, NULLs returned as "". The SQL filter returns the same books, with
      the same repeats, as the pandas passes over the same records. */
  function FilterRecords(db: Db, c: Criteria): (r: seq<Entry>)
    ensures r == Map(Sanitize, Filtering.FilterRecords(Recs(db.rows), c))
  {
    FetchedAgreeWithFrame(db.rows, c);
    Map(Fetch, Keep(db.rows, (x: Row) => Matches(x.rec, c)))
  }

  /** The filter keeps scan order, returns every matching row and only matching rows. */
  lemma FilterSelectsMatchingRows(db: Db, c: Criteria)
    ensures var r := FilterRecords(db, c);
      && Subseq(r, GetAllRecords(db))
      && (forall i :: 0 <= i < |db.rows| && Matches(db.rows[i].rec, c) ==> Fetch(db.rows[i]) in r)
      && (forall i :: 0 <= i < |r| ==> exists k :: 0 <= k < |db.rows| && Matches(db.rows[k].rec, c) && r[i] == Fetch(db.rows[k]))
  {
    FetchedAreMatches(db.rows, c);
  }

  /** The matching rows, fetched, are the pandas selection over their records, sanitized. */
  lemma FetchedAgreeWithFrame(rows: seq<Row>, c: Criteria)
    ensures Map(Fetch, Keep(rows, (x: Row) => Matches(x.rec, c)))
         == Map(Sanitize, Filtering.FilterRecords(Recs(rows), c))
  {
    var kept := Keep(rows, (x: Row) => Matches(x.rec, c));
    KeepMap((x: Row) => x.rec, rows, (x: Record) => Matches(x, c), (x: Row) => Matches(x.rec, c));
    assert Map(Sanitize, Recs(kept)) == Map(Fetch, kept);
  }

  /** The matching rows, fetched, keep scan order and are exactly the fetched matches. */
  lemma FetchedAreMatches(rows: seq<Row>, c: Criteria)
    ensures var r := Map(Fetch, Keep(rows, (x: Row) => Matches(x.rec, c)));
      && Subseq(r, Map(Fetch, rows))
      && (forall i :: 0 <= i < |rows| && Matches(rows[i].rec, c) ==> Fetch(rows[i]) in r)
      && (forall i :: 0 <= i < |r| ==> exists k :: 0 <= k < |rows| && Matches(rows[k].rec, c) && r[i] == Fetch(rows[k]))
  {
    var kept := Keep(rows, (x: Row) => Matches(x.rec, c));
    MapSubseq(Fetch, kept, rows);
    SubseqMembers(kept, rows);
    forall i | 0 <= i < |rows| && Matches(rows[i].rec, c)
      ensures Fetch(rows[i]) in Map(Fetch, kept)
    {
      var k :| 0 <= k < |kept| && kept[k] == rows[i];
      assert Map(Fetch, kept)[k] == Fetch(rows[i]);
    }
  }

  /** The counts and table an import produces. */
  datatype ImportReport = ImportReport(db: Db, imported: nat, skipped: nat)

  /** `SELECT Signature FROM books WHERE Signature IS NOT NULL`, as a set. */
  function CurrentSignatures(db: Db): (sigs: set<string>)
    ensures forall x :: x in sigs <==> HasSignature(Recs(db.rows), x)
  {
    set i | 0 <= i < |db.rows| && db.rows[i].rec.signature.Some? :: db.rows[i].rec.signature.value
  }

  /** What an import run of `rows` into `db` reports, as `r`: every row is
      either imported or skipped; the earlier rows stay an unchanged prefix;
      the appended rows are source rows in source order, none with a known
      Signature; and at least every row with a known Signature is counted
      as skipped. */
  ghost predicate Accounts(db: Db, current: set<string>, rows: seq<Record>, r: ImportReport)
  {
    && r.imported + r.skipped == |rows|
    && |r.db.rows| == |db.rows| + r.imported && r.db.rows[..|db.rows|] == db.rows
    && (forall k :: |db.rows| <= k < |r.db.rows| ==> !KnownSignature(current, r.db.rows[k].rec))
    && Subseq(Recs(r.db.rows[|db.rows|..]), rows)
    && r.skipped >= |Keep(rows, (x: Record) => KnownSignature(current, x))|
  }

  /** The import loop: each row is skipped when its trimmed Signature is
      known, otherwise inserted; an insert the UNIQUE constraint refuses is
      counted as skipped. */
  function ImportRows(db: Db, current: set<string>, rows: seq<Record>): (r: ImportReport)
    ensures Accounts(db, current, rows, r)
    ensures Valid(db) ==> Valid(r.db)
    decreases |rows|
  {
    if rows == [] then
      AccountsEmpty(db, current);
      ImportReport(db, 0, 0)
    else
      assert rows == [rows[0]] + rows[1..];
      if KnownSignature(current, rows[0]) then
        var rest := ImportRows(db, current, rows[1..]);
        AccountsSkip(db, current, rows[0], rows[1..], rest);
        ImportReport(rest.db, rest.imported, rest.skipped + 1)
      else match Insert(db, rows[0])
        case Err(_) =>
          var rest := ImportRows(db, current, rows[1..]);
          AccountsSkip(db, current, rows[0], rows[1..], rest);
          ImportReport(rest.db, rest.imported, rest.skipped + 1)
        case Ok(db1) =>
          var rest := ImportRows(db1, current, rows[1..]);
          AccountsInsert(db, db1, current, rows[0], rows[1..], rest);
          ImportReport(rest.db, rest.imported + 1, rest.skipped)
  }

  lemma AccountsEmpty(db: Db, current: set<string>)
    ensures Accounts(db, current, [], ImportReport(db, 0, 0))
  {
  }

  /** A skipped row adds one to the skip count and nothing to the table. */
  lemma AccountsSkip(db: Db, current: set<string>, row: Record, tail: seq<Record>, rest: ImportReport)
    requires Accounts(db, current, tail, rest)
    ensures Accounts(db, current, [row] + tail, ImportReport(rest.db, rest.imported, rest.skipped + 1))
  {
    var rows := [row] + tail;
    assert rows[1..] == tail;
    SubseqExtend(Recs(rest.db.rows[|db.rows|..]), rows);
  }

  /** An inserted row, followed by the rest of the import, extends the table. */
  lemma AccountsInsert(db: Db, db1: Db, current: set<string>, row: Record, tail: seq<Record>, rest: ImportReport)
    requires db1.rows == db.rows + [Row(db.nextId, row)]
    requires !KnownSignature(current, row)
    requires Accounts(db1, current, tail, rest)
    ensures Accounts(db, current, [row] + tail, ImportReport(rest.db, rest.imported + 1, rest.skipped))
  {
    var rows := [row] + tail;
    assert rows[1..] == tail;
    InsertedStep(db, db1, rest.db.rows, row, tail, current);
  }

  /** One inserted row followed by the rest of the import: the inserted row
      and what follows it extend the earlier table. */
  lemma InsertedStep(db: Db, db1: Db, after: seq<Row>, row: Record, tail: seq<Record>, current: set<string>)
    requires db1.rows == db.rows + [Row(db.nextId, row)]
    requires |after| >= |db1.rows| && after[..|db1.rows|] == db1.rows
    requires !KnownSignature(current, row)
    requires forall k :: |db1.rows| <= k < |after| ==> !KnownSignature(current, after[k].rec)
    requires Subseq(Recs(after[|db1.rows|..]), tail)
    ensures after[..|db.rows|] == db.rows
    ensures forall k :: |db.rows| <= k < |after| ==> !KnownSignature(current, after[k].rec)
    ensures Subseq(Recs(after[|db.rows|..]), [row] + tail)
  {
    var n := |db.rows|;
    assert after[..|db1.rows|][..n] == after[..n];
    assert after[n] == db1.rows[n] == Row(db.nextId, row);
    var suffix := after[|db1.rows|..];
    assert after[n..] == [Row(db.nextId, row)] + suffix;
    RecsCons(Row(db.nextId, row), suffix);
    assert ([row] + Recs(suffix))[1..] == Recs(suffix);
  }

  lemma RecsCons(x: Row, rows: seq<Row>)
    ensures Recs([x] + rows) == [x.rec] + Recs(rows)
  {
  }

  /** The Signature of a row, as a set: empty for a NULL. */
  function SignatureOf(row: Record): set<string>
  {
    if row.signature.Some? then {row.signature.value} else {}
  }

  /** What an import does with the source rows, stated on sets of Signatures
      rather than on the table: the rows it appends, in source order, and how
      many the UNIQUE constraint refuses. */
  datatype ImportPlan = ImportPlan(appended: seq<Record>, refused: nat)

  /** Each row in turn: skipped when its trimmed Signature is among the
      pre-import ones `current`; refused when its present Signature is in
      `taken`, the Signatures on the table and on the rows appended before it;
      appended otherwise, its Signature joining `taken`. */
  function Plan(current: set<string>, taken: set<string>, rows: seq<Record>): ImportPlan
    decreases |rows|
  {
    if rows == [] then ImportPlan([], 0)
    else if KnownSignature(current, rows[0]) then Plan(current, taken, rows[1..])
    else if rows[0].signature.Some? && rows[0].signature.value in taken then
      var rest := Plan(current, taken, rows[1..]);
      ImportPlan(rest.appended, rest.refused + 1)
    else
      var rest := Plan(current, taken + SignatureOf(rows[0]), rows[1..]);
      ImportPlan([rows[0]] + rest.appended, rest.refused)
  }

  /** The planned rows are source rows in source order; none has a known
      Signature, none has a Signature already taken, and no two share one. */
  lemma {:induction false} PlanAppendsFreshRows(current: set<string>, taken: set<string>, rows: seq<Record>)
    ensures var a := Plan(current, taken, rows).appended;
            && Subseq(a, rows)
            && (forall k :: 0 <= k < |a| ==> !KnownSignature(current, a[k]) && SignatureOf(a[k]) !! taken)
            && UniqueSignatures(a)
    decreases |rows|
  {
    if rows != [] {
      var row := rows[0];
      if KnownSignature(current, row) || (row.signature.Some? && row.signature.value in taken) {
        PlanAppendsFreshRows(current, taken, rows[1..]);
        SubseqExtend(Plan(current, taken, rows[1..]).appended, rows);
      } else {
        var taken1 := taken + SignatureOf(row);
        var rest := Plan(current, taken1, rows[1..]).appended;
        PlanAppendsFreshRows(current, taken1, rows[1..]);
        var a := [row] + rest;
        assert a[1..] == rest;
        forall i, j | 0 <= i < j < |a|
          ensures DistinctSignatures(a[i], a[j])
        {
          if i == 0 && row.signature.Some? {
            assert row.signature.value in taken1;
            assert a[j] == rest[j - 1];
          } else if i > 0 {
            assert a[i] == rest[i - 1] && a[j] == rest[j - 1];
          }
        }
      }
    }
  }

  /** An insert adds exactly the new row's Signature to the table's. */
  lemma CurrentAfterInsert(db: Db, row: Record, db1: Db)
    requires db1.rows == db.rows + [Row(db.nextId, row)]
    ensures CurrentSignatures(db1) == CurrentSignatures(db) + SignatureOf(row)
  {
    assert Recs(db1.rows) == Recs(db.rows) + [row];
    forall x
      ensures HasSignature(Recs(db1.rows), x) <==> HasSignature(Recs(db.rows), x) || x in SignatureOf(row)
    {
      if HasSignature(Recs(db1.rows), x) {
        var i :| 0 <= i < |Recs(db1.rows)| && Recs(db1.rows)[i].signature == Some(x);
        if i < |db.rows| {
          assert Recs(db.rows)[i].signature == Some(x);
        }
      }
      if x in SignatureOf(row) {
        assert Recs(db1.rows)[|db.rows|].signature == Some(x);
      }
      if HasSignature(Recs(db.rows), x) {
        var i :| 0 <= i < |Recs(db.rows)| && Recs(db.rows)[i].signature == Some(x);
        assert Recs(db1.rows)[i].signature == Some(x);
      }
    }
  }

  /** The records appended after an insert are the inserted one and those after it. */
  lemma AppendedAfterInsert(db: Db, db1: Db, after: seq<Row>, row: Record)
    requires db1.rows == db.rows + [Row(db.nextId, row)]
    requires |after| >= |db1.rows| && after[..|db1.rows|] == db1.rows
    ensures Recs(after[|db.rows|..]) == [row] + Recs(after[|db1.rows|..])
  {
    var n := |db.rows|;
    assert after[n] == db1.rows[n];
    assert after[n..] == [after[n]] + after[n + 1..];
    RecsCons(after[n], after[n + 1..]);
  }

  /** The import loop carries out the plan: it appends exactly the planned
      rows, and it skips the rows with a known Signature plus the rows the
      UNIQUE constraint refuses. */
  lemma {:induction false} ImportFollowsPlan(db: Db, current: set<string>, rows: seq<Record>)
    ensures var r := ImportRows(db, current, rows);
            var p := Plan(current, CurrentSignatures(db), rows);
            && Recs(r.db.rows[|db.rows|..]) == p.appended
            && r.skipped == |Keep(rows, (x: Record) => KnownSignature(current, x))| + p.refused
    decreases |rows|
  {
    var r := ImportRows(db, current, rows);
    if rows == [] {
      assert r.db.rows[|db.rows|..] == [];
    } else {
      var row, tail := rows[0], rows[1..];
      if KnownSignature(current, row) {
        ImportFollowsPlan(db, current, tail);
      } else if Insert(db, row).Err? {
        ImportFollowsPlan(db, current, tail);
      } else {
        var db1 := Insert(db, row).value;
        CurrentAfterInsert(db, row, db1);
        ImportFollowsPlan(db1, current, tail);
        AppendedAfterInsert(db, db1, ImportRows(db1, current, tail).db.rows, row);
      }
    }
  }

  /** An import counts as imported exactly the planned rows. */
  lemma ImportedArePlanned(db: Db, current: set<string>, rows: seq<Record>)
    ensures ImportRows(db, current, rows).imported == |Plan(current, CurrentSignatures(db), rows).appended|
  {
    ImportFollowsPlan(db, current, rows);
  }

  /** With no Signature in the source nothing is skipped or refused. */
  lemma {:induction false} PlanWithoutSignatures(current: set<string>, taken: set<string>, rows: seq<Record>)
    requires forall k :: 0 <= k < |rows| ==> rows[k].signature.None?
    ensures Plan(current, taken, rows) == ImportPlan(rows, 0)
    decreases |rows|
  {
    if rows != [] {
      PlanWithoutSignatures(current, taken, rows[1..]);
      assert rows == [rows[0]] + rows[1..];
    }
  }

  /** A source without Signatures is imported whole, in order, and nothing is skipped. */
  lemma NoSignaturesImportsAll(db: Db, current: set<string>, rows: seq<Record>)
    requires forall k :: 0 <= k < |rows| ==> rows[k].signature.None?
    ensures var r := ImportRows(db, current, rows);
            r.imported == |rows| && r.skipped == 0 && Recs(r.db.rows[|db.rows|..]) == rows
  {
    ImportFollowsPlan(db, current, rows);
    PlanWithoutSignatures(current, CurrentSignatures(db), rows);
    KeepNone(rows, (x: Record) => KnownSignature(current, x));
  }

  /** `import_from_tsv`: refuses a source lacking a required column before
      touching the table; otherwise it appends exactly the rows the plan
      admits against the table's Signatures, in source order, reports as
      skipped the rows with a known Signature plus those the UNIQUE
      constraint refuses, keeps the existing rows as a prefix and keeps the
      table valid. */
  function ImportFromTsv(db: Db, src: Source): (r: Result<ImportReport, Error>)
    ensures Missing(src) != {} ==> r == Err(MissingColumns(Missing(src)))
    ensures Missing(src) == {} ==> r.Ok?
    ensures r.Ok? ==> Accounts(db, CurrentSignatures(db), src.rows, r.value)
    ensures r.Ok? ==>
      var current := CurrentSignatures(db);
      var p := Plan(current, current, src.rows);
      && Recs(r.value.db.rows[|db.rows|..]) == p.appended
      && r.value.imported == |p.appended|
      && r.value.skipped == |Keep(src.rows, (x: Record) => KnownSignature(current, x))| + p.refused
    ensures r.Ok? && Valid(db) ==> Valid(r.value.db)
  {
    if Missing(src) != {} then Err(MissingColumns(Missing(src)))
    else
      ImportFollowsPlan(db, CurrentSignatures(db), src.rows);
      ImportedArePlanned(db, CurrentSignatures(db), src.rows);
      Ok(ImportRows(db, CurrentSignatures(db), src.rows))
  }

}

=== FILE: filtering.dfy ===
/** Multi-field filtering: the criteria, what it means for a record to match
    them, and the pandas form of the filter as a chain of narrowing passes. */
module Filtering {
  import opened Wrappers
  import opened Seqs
  import opened Text
  import opened Books

  /** The filter dictionary; an absent key or an empty value imposes nothing. */
  datatype Criteria = Criteria(isbn: string, title: string, author: string, publisher: string,
                               year: string, signature: string, keywords: string)

  /** The empty filter dictionary `{}`. */
  const NoCriteria := Criteria("", "", "", "", "", "", "")

  /** The trimmed, non-empty pieces, in order. */
  function TrimmedTokens(parts: seq<string>): (tokens: seq<string>)
    ensures |tokens| <= |parts|
    ensures forall i :: 0 <= i < |tokens| ==> Stripped(tokens[i])
    ensures (forall i :: 0 <= i < |parts| ==> CommaFree(parts[i])) ==>
              forall i :: 0 <= i < |tokens| ==> CommaFree(tokens[i])
  {
    if parts == [] then []
    else
      var t := Trim(parts[0]);
      var rest := TrimmedTokens(parts[1..]);
      TailCommaFree(parts);
      if t == "" then rest
      else
        TrimCommaFree(parts[0]);
        ConsTokens(t, rest);
        [t] + rest
  }

  lemma TailCommaFree(parts: seq<string>)
    requires parts != []
    ensures (forall i :: 0 <= i < |parts| ==> CommaFree(parts[i])) ==>
              CommaFree(parts[0]) && forall i :: 0 <= i < |parts[1..]| ==> CommaFree(parts[1..][i])
  {
  }

  lemma ConsTokens(t: string, rest: seq<string>)
    ensures Stripped(t) && (forall i :: 0 <= i < |rest| ==> Stripped(rest[i])) ==>
              forall i :: 0 <= i < |[t] + rest| ==> Stripped(([t] + rest)[i])
    ensures CommaFree(t) && (forall i :: 0 <= i < |rest| ==> CommaFree(rest[i])) ==>
              forall i :: 0 <= i < |[t] + rest| ==> CommaFree(([t] + rest)[i])
  {
  }

  /** The keyword fragments of a keywords criterion: split on commas, each
      trimmed, empty ones dropped. */
  function KeywordTokens(keywords: string): (tokens: seq<string>)
    ensures forall i :: 0 <= i < |tokens| ==> Stripped(tokens[i]) && CommaFree(tokens[i])
  {
    TrimmedTokens(SplitCommas(keywords))
  }

  /** The tokens are the strips of the pieces, in order, with the empty ones dropped. */
  lemma {:induction false} TrimmedTokensAreNonEmptyStrips(parts: seq<string>)
    ensures TrimmedTokens(parts) == Keep(Map(Trim, parts), (t: string) => t != "")
    decreases |parts|
  {
    if parts != [] {
      TrimmedTokensAreNonEmptyStrips(parts[1..]);
      assert Map(Trim, parts)[1..] == Map(Trim, parts[1..]);
    }
  }

  /** A string is a token exactly when it is the non-empty strip of some piece. */
  lemma TrimmedTokensMembers(parts: seq<string>)
    ensures forall t :: t in TrimmedTokens(parts) <==> t != "" && exists p :: p in parts && Trim(p) == t
  {
    TrimmedTokensAreNonEmptyStrips(parts);
    var strips := Map(Trim, parts);
    forall t
      ensures t in TrimmedTokens(parts) <==> t != "" && exists p :: p in parts && Trim(p) == t
    {
      if t != "" && exists p :: p in parts && Trim(p) == t {
        var p :| p in parts && Trim(p) == t;
        var i :| 0 <= i < |parts| && parts[i] == p;
        assert strips[i] == t;
      }
      if t in TrimmedTokens(parts) {
        var i :| 0 <= i < |strips| && strips[i] == t;
        assert parts[i] in parts;
      }
    }
  }

  /** The keyword fragments are the non-empty strips of the comma-separated
      pieces of the criterion, in order; a string is a fragment exactly when
      it is the non-empty strip of some piece. */
  lemma KeywordTokensAreStrippedPieces(keywords: string)
    ensures KeywordTokens(keywords) == Keep(Map(Trim, SplitCommas(keywords)), (t: string) => t != "")
    ensures forall t :: t in KeywordTokens(keywords) <==>
              t != "" && exists p :: p in SplitCommas(keywords) && Trim(p) == t
  {
    TrimmedTokensAreNonEmptyStrips(SplitCommas(keywords));
    TrimmedTokensMembers(SplitCommas(keywords));
  }

  /** A present cell containing the criterion, ignoring ASCII case; a missing cell never matches. */
  predicate FieldMatches(cell: Cell, criterion: string)
  {
    cell.Some? && ContainsIgnoreCase(cell.value, criterion)
  }

  /** A single-field criterion admits a cell when it is empty or the cell matches it. */
  predicate Admits(cell: Cell, criterion: string)
  {
    criterion == "" || FieldMatches(cell, criterion)
  }

  /** Every fragment occurs in the cell. */
  predicate AllFragmentsMatch(cell: Cell, tokens: seq<string>)
  {
    forall t :: t in tokens ==> FieldMatches(cell, t)
  }

  /** Every keyword fragment occurs in the Keywords cell. */
  predicate KeywordsMatch(cell: Cell, keywords: string)
  {
    AllFragmentsMatch(cell, KeywordTokens(keywords))
  }

  /** A record passes a filter when every active criterion admits it (logical AND). */
  predicate Matches(r: Record, c: Criteria)
  {
    && Admits(r.isbn, c.isbn)
    && Admits(r.title, c.title)
    && Admits(r.author, c.author)
    && Admits(r.publisher, c.publisher)
    && Admits(r.year, c.year)
    && Admits(r.signature, c.signature)
    && KeywordsMatch(r.keywords, c.keywords)
  }

  /** One pandas pass `result = result[result[col]...str.contains(criterion)]`, skipped when the criterion is empty. */
  function Narrow(s: seq<Record>, col: Column, criterion: string): seq<Record>
  {
    if criterion == "" then s else Keep(s, (x: Record) => FieldMatches(Field(x, col), criterion))
  }

  /** One pass per keyword fragment, in order. */
  function NarrowByTokens(s: seq<Record>, tokens: seq<string>): seq<Record>
    decreases |tokens|
  {
    if tokens == [] then s
    else NarrowByTokens(Keep(s, (x: Record) => FieldMatches(x.keywords, tokens[0])), tokens[1..])
  }

  /** The single-field columns in the order the passes visit them. */
  function PassColumn(n: nat): Column
    requires n < 6
  {
    [ISBN, Title, Author, Publisher, Year, Signature][n]
  }

  /** The criterion the `n`-th pass applies. */
  function PassCriterion(c: Criteria, n: nat): string
    requires n < 6
  {
    [c.isbn, c.title, c.author, c.publisher, c.year, c.signature][n]
  }

  /** The records left after the first `n` single-field passes. */
  function Passes(s: seq<Record>, c: Criteria, n: nat): seq<Record>
    requires n <= 6
  {
    if n == 0 then s else Narrow(Passes(s, c, n - 1), PassColumn(n - 1), PassCriterion(c, n - 1))
  }

  /** The filter as the pandas backends write it: successive narrowing passes. */
  function NarrowingChain(s: seq<Record>, c: Criteria): seq<Record>
  {
    NarrowByTokens(Passes(s, c, 6), KeywordTokens(c.keywords))
  }

  /** A pass after a selection is a single selection with the extra conjunct. */
  lemma NarrowAfterKeep(s: seq<Record>, p: Record -> bool, col: Column, criterion: string, q: Record -> bool)
    requires forall x :: q(x) == (p(x) && Admits(Field(x, col), criterion))
    ensures Narrow(Keep(s, p), col, criterion) == Keep(s, q)
  {
  }

  /** The keyword passes after a selection are a single selection requiring every fragment. */
  lemma {:induction false} TokensAfterKeep(s: seq<Record>, p: Record -> bool, tokens: seq<string>, q: Record -> bool)
    requires forall x :: q(x) == (p(x) && AllFragmentsMatch(x.keywords, tokens))
    ensures NarrowByTokens(Keep(s, p), tokens) == Keep(s, q)
    decreases |tokens|
  {
    if tokens == [] {
      KeepExt(s, p, q);
    } else {
      var p1 := (x: Record) => p(x) && FieldMatches(x.keywords, tokens[0]);
      KeepKeep(s, p, (x: Record) => FieldMatches(x.keywords, tokens[0]), p1);
      forall x
        ensures q(x) == (p1(x) && AllFragmentsMatch(x.keywords, tokens[1..]))
      {
        assert forall t :: t in tokens <==> t == tokens[0] || t in tokens[1..];
      }
      TokensAfterKeep(s, p1, tokens[1..], q);
    }
  }

  /** The first `n` single-field criteria, in the order the passes apply them, admit `x`. */
  predicate AdmitsFirst(x: Record, c: Criteria, n: nat)
    requires n <= 6
  {
    n == 0 || (AdmitsFirst(x, c, n - 1) && Admits(Field(x, PassColumn(n - 1)), PassCriterion(c, n - 1)))
  }

  /** After `n` passes exactly the records admitted by the first `n` criteria remain. */
  lemma {:induction false} PassesSelect(s: seq<Record>, c: Criteria, n: nat)
    requires n <= 6
    ensures Passes(s, c, n) == Keep(s, (x: Record) => AdmitsFirst(x, c, n))
  {
    if n == 0 {
      KeepAll(s, (x: Record) => AdmitsFirst(x, c, 0));
    } else {
      PassesSelect(s, c, n - 1);
      NarrowAfterKeep(s, (x: Record) => AdmitsFirst(x, c, n - 1), PassColumn(n - 1), PassCriterion(c, n - 1),
                      (x: Record) => AdmitsFirst(x, c, n));
    }
  }

  /** After all six passes, a record is admitted by each single-field criterion. */
  lemma AdmitsAllSix(x: Record, c: Criteria)
    ensures AdmitsFirst(x, c, 6) ==
              (&& Admits(x.isbn, c.isbn) && Admits(x.title, c.title) && Admits(x.author, c.author)
               && Admits(x.publisher, c.publisher) && Admits(x.year, c.year) && Admits(x.signature, c.signature))
  {
    assert AdmitsFirst(x, c, 1) == Admits(x.isbn, c.isbn);
    assert AdmitsFirst(x, c, 2) == (AdmitsFirst(x, c, 1) && Admits(x.title, c.title));
    assert AdmitsFirst(x, c, 3) == (AdmitsFirst(x, c, 2) && Admits(x.author, c.author));
    assert AdmitsFirst(x, c, 4) == (AdmitsFirst(x, c, 3) && Admits(x.publisher, c.publisher));
    assert AdmitsFirst(x, c, 5) == (AdmitsFirst(x, c, 4) && Admits(x.year, c.year));
    assert AdmitsFirst(x, c, 6) == (AdmitsFirst(x, c, 5) && Admits(x.signature, c.signature));
  }

  /** The chain of pandas passes selects exactly the records matching the
      conjunction of all criteria: filtering in sequence is filtering once with AND. */
  lemma ChainIsConjunction(s: seq<Record>, c: Criteria)
    ensures NarrowingChain(s, c) == Keep(s, (x: Record) => Matches(x, c))
  {
    var p6 := (x: Record) => AdmitsFirst(x, c, 6);
    PassesSelect(s, c, 6);
    MatchesSplits(c);
    TokensAfterKeep(s, p6, KeywordTokens(c.keywords), (x: Record) => Matches(x, c));
  }

  /** Matching is the six single-field criteria followed by the keyword fragments. */
  lemma MatchesSplits(c: Criteria)
    ensures forall x :: Matches(x, c) == (AdmitsFirst(x, c, 6) && AllFragmentsMatch(x.keywords, KeywordTokens(c.keywords)))
  {
    forall x
      ensures Matches(x, c) == (AdmitsFirst(x, c, 6) && AllFragmentsMatch(x.keywords, KeywordTokens(c.keywords)))
    {
      AdmitsAllSix(x, c);
    }
  }

  /** `filter_records` of the pandas backends: an order-preserving subsequence
      holding exactly the records that match every criterion, each as often
      as it occurs in `s`. */
  function FilterRecords(s: seq<Record>, c: Criteria): (r: seq<Record>)
    ensures r == Keep(s, (x: Record) => Matches(x, c))
    ensures Subseq(r, s)
    ensures forall i :: 0 <= i < |r| ==> Matches(r[i], c)
    ensures forall i :: 0 <= i < |s| && Matches(s[i], c) ==> s[i] in r
  {
    ChainIsConjunction(s, c);
    NarrowingChain(s, c)
  }

  /** The empty filter admits every record. */
  lemma NoCriteriaMatchesAll(r: Record)
    ensures Matches(r, NoCriteria)
  {
  }

  /** Filtering with the empty dictionary returns every record unchanged. */
  lemma FilterNothing(s: seq<Record>)
    ensures FilterRecords(s, NoCriteria) == s
  {
    forall i | 0 <= i < |s|
      ensures Matches(s[i], NoCriteria)
    {
      NoCriteriaMatchesAll(s[i]);
    }
    KeepAll(s, (x: Record) => Matches(x, NoCriteria));
    ChainIsConjunction(s, NoCriteria);
  }

  /** The criterion `x, y` splits into the fragments `x` and `y`. */
  lemma TokensOfPair(x: string, y: string)
    requires Stripped(x) && Stripped(y) && CommaFree(x) && CommaFree(y)
    ensures KeywordTokens(x + ", " + y) == [x, y]
  {
    SplitPair(x, y);
    TrimUnchanged(x);
    TrimLeadingSpace(y);
    TrimUnchanged(y);
    TokensOfTrimmedPair(x, " " + y, y);
  }

  lemma TokensOfTrimmedPair(a: string, b: string, y: string)
    requires Trim(a) == a != "" && Trim(b) == y != ""
    ensures TrimmedTokens([a, b]) == [a, y]
  {
  }

  lemma AllFragmentsPair(cell: Cell, x: string, y: string)
    ensures AllFragmentsMatch(cell, [x, y]) <==> FieldMatches(cell, x) && FieldMatches(cell, y)
  {
  }

  /** A keywords criterion `x, y` keeps a record exactly when its Keywords
      contain both fragments. */
  lemma KeywordsAreConjunctive(cell: Cell, x: string, y: string)
    requires Stripped(x) && Stripped(y) && CommaFree(x) && CommaFree(y)
    ensures KeywordsMatch(cell, x + ", " + y) <==> FieldMatches(cell, x) && FieldMatches(cell, y)
  {
    TokensOfPair(x, y);
    AllFragmentsPair(cell, x, y);
  }
}

=== FILE: library_manager.dfy ===
/** `LibraryManager`: the semicolon-separated file backend. The store is the
    in-memory frame; every successful mutation is written back whole, so the
    file holds the returned sequence. */
module LibraryManager {
  import opened Wrappers
  import opened Seqs
  import opened Text
  import opened Books
  import opened Filtering

  /** `add_record`: refuses a non-empty Signature some record already has
      (exact comparison), otherwise appends exactly one record. */
  function AddRecord(s: Store, e: Entry): (r: Result<Store, Error>)
    ensures r.Err? <==> e.signature != "" && HasSignature(s, e.signature)
    ensures r.Err? ==> r.error == DuplicateSignature(e.signature)
    ensures r.Ok? ==> |r.value| == |s| + 1 && r.value[..|s|] == s && r.value[|s|] == FromEntry(e)
  {
    if e.signature != "" && HasSignature(s, e.signature) then Err(DuplicateSignature(e.signature))
    else Ok(s + [FromEntry(e)])
  }

  /** Some record other than the one at position `i` carries this Signature. */
  predicate SignatureElsewhere(s: Store, signature: string, i: nat)
  {
    exists j :: 0 <= j < |s| && j != i && s[j].signature == Some(signature)
  }

  /** `update_record`: finds the first record whose trimmed ISBN equals the
      trimmed lookup key, refuses a non-empty Signature held by any other
      record, and replaces all eight fields of that record only. */
  function UpdateRecord(s: Store, e: Entry, originalIsbn: Option<string>): (r: Result<Store, Error>)
    ensures var key := LookupKey(e, originalIsbn);
      FindByIsbn(s, key).None? ==> r == Err(NotFound(key))
    ensures var key := LookupKey(e, originalIsbn);
      FindByIsbn(s, key).Some? ==>
        var i := FindByIsbn(s, key).value;
        && (r.Err? <==> e.signature != "" && SignatureElsewhere(s, e.signature, i))
        && (r.Err? ==> r.error == DuplicateSignature(e.signature))
        && (r.Ok? ==> |r.value| == |s| && r.value[i] == FromEntry(e)
                      && forall k :: 0 <= k < |s| && k != i ==> r.value[k] == s[k])
  {
    var key := LookupKey(e, originalIsbn);
    match FindByIsbn(s, key)
    case None => Err(NotFound(key))
    case Some(i) =>
      if e.signature != "" && SignatureElsewhere(s, e.signature, i) then Err(DuplicateSignature(e.signature))
      else Ok(s[i := FromEntry(e)])
  }

  /** `delete_record`: removes the record at a Python index (negative counts
      from the end); any other index fails and changes nothing. */
  function DeleteRecord(s: Store, index: int): (r: Result<Store, Error>)
    ensures r.Err? <==> !(-|s| <= index < |s|)
    ensures r.Err? ==> r.error == InvalidIndex(index)
    ensures r.Ok? ==> |r.value| == |s| - 1 && Subseq(r.value, s)
    ensures r.Ok? ==> var p := if index >= 0 then index else |s| + index;
                      r.value == RemoveAt(s, p)
  {
    match PythonIndex(|s|, index)
    case None => Err(InvalidIndex(index))
    case Some(p) =>
      RemoveAtSubseq(s, p);
      Ok(RemoveAt(s, p))
  }

  /** The trimmed present Signatures of a sequence of records. */
  function TrimmedSignatures(s: seq<Record>): (sigs: set<string>)
    ensures forall x :: x in sigs <==>
              exists i :: 0 <= i < |s| && s[i].signature.Some? && Trim(s[i].signature.value) == x
  {
    set i | 0 <= i < |s| && s[i].signature.Some? :: Trim(s[i].signature.value)
  }

  /** `check_import_conflicts`: the trimmed Signatures present both in the store
      and in the import source; a source lacking a required column is refused. */
  function CheckImportConflicts(s: Store, src: Source): (r: Result<set<string>, Error>)
    ensures Missing(src) != {} ==> r == Err(MissingColumns(Missing(src)))
    ensures Missing(src) == {} ==> r.Ok?
    ensures r.Ok? ==> forall x :: x in r.value <==>
              (exists i :: 0 <= i < |s| && s[i].signature.Some? && Trim(s[i].signature.value) == x) &&
              (exists j :: 0 <= j < |src.rows| && src.rows[j].signature.Some? && Trim(src.rows[j].signature.value) == x)
  {
    if Missing(src) != {} then Err(MissingColumns(Missing(src)))
    else Ok(TrimmedSignatures(s) * TrimmedSignatures(src.rows))
  }

  /** The source rows a merge appends, in source order. */
  function MergedRows(s: Store, src: Source): seq<Record>
  {
    Keep(src.rows, (x: Record) => !KnownSignature(TrimmedSignatures(s), x))
  }

  /** The source rows a merge skips, in source order. */
  function SkippedRows(s: Store, src: Source): seq<Record>
  {
    Keep(src.rows, (x: Record) => KnownSignature(TrimmedSignatures(s), x))
  }

  /** `import_csv_merge`: appends, in source order, exactly the source rows
      whose Signature is missing or not among the store's trimmed Signatures;
      the existing records stay an unchanged prefix. */
  function ImportCsvMerge(s: Store, src: Source): (r: Result<Store, Error>)
    ensures Missing(src) != {} ==> r == Err(MissingColumns(Missing(src)))
    ensures Missing(src) == {} ==> r.Ok?
    ensures r.Ok? ==> r.value == s + Keep(src.rows, (x: Record) => !KnownSignature(TrimmedSignatures(s), x))
    ensures r.Ok? ==> |r.value| >= |s| && r.value[..|s|] == s
    ensures r.Ok? ==> Subseq(r.value[|s|..], src.rows)
    ensures r.Ok? ==> forall k :: |s| <= k < |r.value| ==> !KnownSignature(TrimmedSignatures(s), r.value[k])
    ensures r.Ok? ==> forall j :: 0 <= j < |src.rows| && !KnownSignature(TrimmedSignatures(s), src.rows[j]) ==>
                        src.rows[j] in r.value[|s|..]
  {
    if Missing(src) != {} then Err(MissingColumns(Missing(src)))
    else
      var added := MergedRows(s, src);
      assert (s + added)[|s|..] == added;
      Ok(s + added)
  }

  /** A merge accounts for every source row: imported plus skipped is the source size. */
  lemma MergeCounts(s: Store, src: Source)
    requires Missing(src) == {}
    ensures |ImportCsvMerge(s, src).value| - |s| + |SkippedRows(s, src)| == |src.rows|
  {
    var current := TrimmedSignatures(s);
    KeepSplitsCount(src.rows, (x: Record) => !KnownSignature(current, x), (x: Record) => KnownSignature(current, x));
  }

  /** The rows a merge skips are exactly those whose Signature the dry run reports. */
  lemma SkippedAreConflicts(s: Store, src: Source)
    requires Missing(src) == {}
    ensures forall j :: 0 <= j < |src.rows| && src.rows[j].signature.Some? ==>
              (src.rows[j] in SkippedRows(s, src) <==> Trim(src.rows[j].signature.value) in CheckImportConflicts(s, src).value)
  {
  }

  /** With no conflicts reported, a merge appends the whole source. */
  lemma NoConflictsImportsAll(s: Store, src: Source)
    requires Missing(src) == {} && CheckImportConflicts(s, src).value == {}
    ensures ImportCsvMerge(s, src) == Ok(s + src.rows)
  {
    var current := TrimmedSignatures(s);
    forall j | 0 <= j < |src.rows|
      ensures !KnownSignature(current, src.rows[j])
    {
      if src.rows[j].signature.Some? {
        var x := Trim(src.rows[j].signature.value);
        assert x !in CheckImportConflicts(s, src).value;
      }
    }
    KeepAll(src.rows, (x: Record) => !KnownSignature(current, x));
  }

  /** `import_csv`: replaces the whole store with the source rows after the
      header check; nothing is merged or checked for duplicates. */
  function ImportCsv(s: Store, src: Source): (r: Result<Store, Error>)
    ensures Missing(src) != {} ==> r == Err(MissingColumns(Missing(src)))
    ensures Missing(src) == {} ==> r == Ok(src.rows)
  {
    if Missing(src) != {} then Err(MissingColumns(Missing(src))) else Ok(src.rows)
  }

  /** Merging a source into the store that a replacing import of that same
      source produced adds back only its rows without a Signature: every
      present Signature is already known. */
  lemma {:induction false} MergeAfterReplaceAddsUnsigned(s: Store, src: Source)
    requires Missing(src) == {}
    ensures ImportCsvMerge(ImportCsv(s, src).value, src)
            == Ok(src.rows + Keep(src.rows, (x: Record) => x.signature.None?))
  {
    var t := ImportCsv(s, src).value;
    var current := TrimmedSignatures(t);
    forall i | 0 <= i < |src.rows|
      ensures !KnownSignature(current, src.rows[i]) == src.rows[i].signature.None?
    {
      if src.rows[i].signature.Some? {
        assert Trim(src.rows[i].signature.value) in current;
      }
    }
    KeepExt(src.rows, (x: Record) => !KnownSignature(current, x), (x: Record) => x.signature.None?);
  }

  /** A successful add keeps the Signature invariant. */
  lemma AddKeepsUnique(s: Store, e: Entry)
    requires UniqueSignatures(s) && AddRecord(s, e).Ok?
    ensures UniqueSignatures(AddRecord(s, e).value)
  {
  }

  /** A successful update keeps the Signature invariant. */
  lemma UpdateKeepsUnique(s: Store, e: Entry, originalIsbn: Option<string>)
    requires UniqueSignatures(s) && UpdateRecord(s, e, originalIsbn).Ok?
    ensures UniqueSignatures(UpdateRecord(s, e, originalIsbn).value)
  {
  }

  /** A successful delete keeps the Signature invariant. */
  lemma DeleteKeepsUnique(s: Store, index: int)
    requires UniqueSignatures(s) && DeleteRecord(s, index).Ok?
    ensures UniqueSignatures(DeleteRecord(s, index).value)
  {
  }

  /** A merge keeps the Signature invariant when the source itself has no
      repeated Signature: rows matching a stored Signature are skipped. */
  lemma MergeKeepsUnique(s: Store, src: Source)
    requires UniqueSignatures(s) && UniqueSignatures(src.rows) && Missing(src) == {}
    ensures UniqueSignatures(ImportCsvMerge(s, src).value)
  {
    var added := MergedRows(s, src);
    var t := s + added;
    var current := TrimmedSignatures(s);
    SubseqPairwise(added, src.rows, DistinctSignatures);
    forall i, j | 0 <= i < j < |t|
      ensures DistinctSignatures(t[i], t[j])
    {
      if j >= |s| && i < |s| && t[i].signature.Some? {
        assert t[j] == added[j - |s|];
        assert !KnownSignature(current, added[j - |s|]);
        assert Trim(s[i].signature.value) in current;
      } else if i >= |s| {
        assert t[i] == added[i - |s|] && t[j] == added[j - |s|];
      }
    }
  }

  /** The merge does not look for repeated Signatures inside the source: two
      source rows with the same new Signature are both appended. */
  lemma MergeAdmitsRepeatsWithinSource()
    ensures var row := Record(Some("1"), Some("T"), Some("A"), Some("P"), Some("2000"), Some("S1"), Some(""), Some(""));
            var merged := ImportCsvMerge([], Source(RequiredColumns, [row, row]));
            merged.Ok? && merged.value == [row, row] && !UniqueSignatures(merged.value)
  {
    var row := Record(Some("1"), Some("T"), Some("A"), Some("P"), Some("2000"), Some("S1"), Some(""), Some(""));
    assert TrimmedSignatures([]) == {};
    KeepAll([row, row], (x: Record) => !KnownSignature(TrimmedSignatures([]), x));
    assert !DistinctSignatures([row, row][0], [row, row][1]);
  }
}

=== FILE: seqs.dfy ===
/** Order-preserving selection on sequences: the shape shared by filtering,
    merging, deletion by key and the stability statement of the sort. */
module Seqs {
  import opened Wrappers

  /** `a` can be obtained from `b` by deleting elements (greedy matching). */
  predicate Subseq<T(==)>(a: seq<T>, b: seq<T>)
    decreases |b|
  {
    if a == [] then true
    else if b == [] then false
    else if a[0] == b[0] then Subseq(a[1..], b[1..])
    else Subseq(a, b[1..])
  }

  /** The elements of `s` satisfying `p`, in their original order. */
  function Keep<T(==)>(s: seq<T>, p: T -> bool): (r: seq<T>)
    ensures |r| <= |s|
    ensures Subseq(r, s)
    ensures forall i :: 0 <= i < |r| ==> p(r[i])
    ensures forall i :: 0 <= i < |s| && p(s[i]) ==> s[i] in r
    ensures forall x :: x in r ==> x in s
  {
    if s == [] then []
    else if p(s[0]) then [s[0]] + Keep(s[1..], p)
    else Keep(s[1..], p)
  }

  /** Position of the first element of `s` satisfying `p`. */
  function FirstIndex<T>(s: seq<T>, p: T -> bool): (r: Option<nat>)
    ensures r.Some? ==> r.value < |s| && p(s[r.value])
    ensures r.Some? ==> forall k :: 0 <= k < r.value ==> !p(s[k])
    ensures r.None? ==> forall k :: 0 <= k < |s| ==> !p(s[k])
  {
    if s == [] then None
    else if p(s[0]) then Some(0)
    else match FirstIndex(s[1..], p)
      case None => None
      case Some(i) => Some(i + 1)
  }

  /** Applies `f` to every element. */
  function Map<A, B>(f: A -> B, s: seq<A>): (r: seq<B>)
    ensures |r| == |s|
    ensures forall i :: 0 <= i < |s| ==> r[i] == f(s[i])
  {
    seq(|s|, i requires 0 <= i < |s| => f(s[i]))
  }

  /** A relation that holds between every earlier and every later element. */
  ghost predicate Pairwise<T>(s: seq<T>, rel: (T, T) -> bool)
  {
    forall i, j :: 0 <= i < j < |s| ==> rel(s[i], s[j])
  }

  lemma {:induction false} SubseqExtend<T>(a: seq<T>, b: seq<T>)
    requires b != [] && Subseq(a, b[1..])
    ensures Subseq(a, b)
    decreases |b|, 0
  {
    if a != [] && a[0] == b[0] {
      SubseqDropHead(a, b[1..]);
    }
  }

  lemma {:induction false} SubseqDropHead<T>(a: seq<T>, b: seq<T>)
    requires a != [] && Subseq(a, b)
    ensures Subseq(a[1..], b)
    decreases |b|, 1
  {
    if a[0] == b[0] {
      SubseqExtend(a[1..], b);
    } else {
      SubseqDropHead(a, b[1..]);
      SubseqExtend(a[1..], b);
    }
  }

  /** Every sequence is a subsequence of itself. */
  lemma {:induction false} SubseqRefl<T>(s: seq<T>)
    ensures Subseq(s, s)
    decreases |s|
  {
    if s != [] {
      SubseqRefl(s[1..]);
    }
  }

  /** Mapping both sides keeps the subsequence relation. */
  lemma {:induction false} MapSubseq<A, B>(f: A -> B, a: seq<A>, b: seq<A>)
    requires Subseq(a, b)
    ensures Subseq(Map(f, a), Map(f, b))
    decreases |b|
  {
    if a != [] {
      assert Map(f, b)[1..] == Map(f, b[1..]);
      if a[0] == b[0] {
        assert Map(f, a)[1..] == Map(f, a[1..]);
        MapSubseq(f, a[1..], b[1..]);
      } else {
        MapSubseq(f, a, b[1..]);
        SubseqExtend(Map(f, a), Map(f, b));
      }
    }
  }

  /** A subsequence lifts every pairwise relation of the original. */
  lemma {:induction false} SubseqPairwise<T>(a: seq<T>, b: seq<T>, rel: (T, T) -> bool)
    requires Subseq(a, b) && Pairwise(b, rel)
    ensures Pairwise(a, rel)
    decreases |b|
  {
    if a != [] {
      if a[0] == b[0] {
        SubseqPairwise(a[1..], b[1..], rel);
        SubseqMembers(a[1..], b[1..]);
        forall i, j | 0 <= i < j < |a|
          ensures rel(a[i], a[j])
        {
          if i > 0 {
            assert rel(a[1..][i - 1], a[1..][j - 1]);
          } else {
            assert a[j] == a[1..][j - 1];
            var k :| 0 <= k < |b[1..]| && b[1..][k] == a[j];
            assert rel(b[0], b[k + 1]);
          }
        }
      } else {
        SubseqPairwise(a, b[1..], rel);
      }
    }
  }

  /** Every element of a subsequence occurs in the original. */
  lemma {:induction false} SubseqMembers<T>(a: seq<T>, b: seq<T>)
    requires Subseq(a, b)
    ensures forall i :: 0 <= i < |a| ==> exists k :: 0 <= k < |b| && b[k] == a[i]
    decreases |b|
  {
    if a != [] {
      if a[0] == b[0] {
        SubseqMembers(a[1..], b[1..]);
        forall i | 0 <= i < |a|
          ensures exists k :: 0 <= k < |b| && b[k] == a[i]
        {
          if i == 0 {
            assert b[0] == a[0];
          } else {
            var k :| 0 <= k < |b[1..]| && b[1..][k] == a[1..][i - 1];
            assert b[k + 1] == a[i];
          }
        }
      } else {
        SubseqMembers(a, b[1..]);
        forall i | 0 <= i < |a|
          ensures exists k :: 0 <= k < |b| && b[k] == a[i]
        {
          var k :| 0 <= k < |b[1..]| && b[1..][k] == a[i];
          assert b[k + 1] == a[i];
        }
      }
    }
  }

  /** Selecting with a predicate every element satisfies changes nothing. */
  lemma {:induction false} KeepAll<T>(s: seq<T>, p: T -> bool)
    requires forall i :: 0 <= i < |s| ==> p(s[i])
    ensures Keep(s, p) == s
    decreases |s|
  {
    if s != [] {
      KeepAll(s[1..], p);
    }
  }

  /** Selecting with a predicate no element satisfies gives nothing. */
  lemma {:induction false} KeepNone<T>(s: seq<T>, p: T -> bool)
    requires forall i :: 0 <= i < |s| ==> !p(s[i])
    ensures Keep(s, p) == []
    decreases |s|
  {
    if s != [] {
      KeepNone(s[1..], p);
    }
  }

  /** Two predicates that agree everywhere on `s` select the same elements. */
  lemma {:induction false} KeepExt<T>(s: seq<T>, p: T -> bool, q: T -> bool)
    requires forall i :: 0 <= i < |s| ==> p(s[i]) == q(s[i])
    ensures Keep(s, p) == Keep(s, q)
    decreases |s|
  {
    if s != [] {
      KeepExt(s[1..], p, q);
    }
  }

  /** Two successive selections are one selection with the conjunction. */
  lemma {:induction false} KeepKeep<T>(s: seq<T>, p: T -> bool, q: T -> bool, pq: T -> bool)
    requires forall i :: 0 <= i < |s| ==> pq(s[i]) == (p(s[i]) && q(s[i]))
    ensures Keep(Keep(s, p), q) == Keep(s, pq)
    decreases |s|
  {
    if s != [] {
      KeepKeep(s[1..], p, q, pq);
    }
  }

  /** The kept and the rejected elements together account for all of `s`. */
  lemma {:induction false} KeepSplitsCount<T>(s: seq<T>, p: T -> bool, notP: T -> bool)
    requires forall i :: 0 <= i < |s| ==> notP(s[i]) == !p(s[i])
    ensures |Keep(s, p)| + |Keep(s, notP)| == |s|
    decreases |s|
  {
    if s != [] {
      KeepSplitsCount(s[1..], p, notP);
    }
  }

  /** Keeping everything means nothing failed the predicate. */
  lemma {:induction false} KeepFullLength<T>(s: seq<T>, p: T -> bool)
    ensures |Keep(s, p)| == |s| <==> forall i :: 0 <= i < |s| ==> p(s[i])
    decreases |s|
  {
    if s != [] {
      KeepFullLength(s[1..], p);
      if !p(s[0]) {
        assert |Keep(s, p)| <= |s[1..]|;
      } else {
        forall i | 0 <= i < |s| && (forall k :: 0 <= k < |s[1..]| ==> p(s[1..][k]))
          ensures p(s[i])
        {
          if i > 0 { assert s[i] == s[1..][i - 1]; }
        }
      }
    }
  }

  /** Selecting after mapping is mapping after selecting with the composed predicate. */
  lemma {:induction false} KeepMap<A, B>(f: A -> B, s: seq<A>, p: B -> bool, pf: A -> bool)
    requires forall i :: 0 <= i < |s| ==> pf(s[i]) == p(f(s[i]))
    ensures Keep(Map(f, s), p) == Map(f, Keep(s, pf))
    decreases |s|
  {
    if s != [] {
      assert Map(f, s)[1..] == Map(f, s[1..]);
      KeepMap(f, s[1..], p, pf);
      if pf(s[0]) {
        assert Map(f, [s[0]] + Keep(s[1..], pf)) == [f(s[0])] + Map(f, Keep(s[1..], pf));
      }
    }
  }

  /** Python's `seq[index]` position: negative indices count from the end. */
  function PythonIndex(n: nat, index: int): (p: Option<nat>)
    ensures p.Some? <==> -(n as int) <= index < n
    ensures p.Some? ==> p.value < n && (if index >= 0 then p.value == index else p.value == n + index)
  {
    if 0 <= index < n then Some(index)
    else if -(n as int) <= index < 0 then Some(n + index)
    else None
  }

  /** `s` without its element at position `p`. */
  function RemoveAt<T>(s: seq<T>, p: nat): (r: seq<T>)
    requires p < |s|
    ensures |r| == |s| - 1
    ensures forall k :: 0 <= k < p ==> r[k] == s[k]
    ensures forall k :: p <= k < |r| ==> r[k] == s[k + 1]
  {
    s[..p] + s[p + 1..]
  }

  /** Removing one element leaves a subsequence. */
  lemma {:induction false} RemoveAtSubseq<T>(s: seq<T>, p: nat)
    requires p < |s|
    ensures Subseq(RemoveAt(s, p), s)
    decreases p
  {
    if p == 0 {
      assert RemoveAt(s, 0) == s[1..];
      SubseqRefl(s[1..]);
      SubseqExtend(s[1..], s);
    } else {
      RemoveAtSubseq(s[1..], p - 1);
      assert RemoveAt(s, p) == [s[0]] + RemoveAt(s[1..], p - 1);
    }
  }

  /** The elements of `s` whose position, counted from `base`, is not in `P`, in order. */
  function DropPositionsFrom<T>(s: seq<T>, P: set<nat>, base: nat): seq<T>
    decreases |s|
  {
    if s == [] then []
    else (if base in P then [] else [s[0]]) + DropPositionsFrom(s[1..], P, base + 1)
  }

  /** `s` with the elements at the positions in `P` removed. */
  function DropPositions<T>(s: seq<T>, P: set<nat>): seq<T>
  {
    DropPositionsFrom(s, P, 0)
  }

  lemma {:induction false} DropPositionsAppend<T>(a: seq<T>, b: seq<T>, P: set<nat>, base: nat)
    ensures DropPositionsFrom(a + b, P, base) == DropPositionsFrom(a, P, base) + DropPositionsFrom(b, P, base + |a|)
    decreases |a|
  {
    if a == [] {
      assert a + b == b;
    } else {
      var head := if base in P then [] else [a[0]];
      var ra := DropPositionsFrom(a[1..], P, base + 1);
      var rb := DropPositionsFrom(b, P, base + |a|);
      assert (a + b)[0] == a[0];
      assert (a + b)[1..] == a[1..] + b;
      DropPositionsAppend(a[1..], b, P, base + 1);
      assert DropPositionsFrom(a + b, P, base) == head + (ra + rb);
      assert DropPositionsFrom(a, P, base) == head + ra;
      assert head + (ra + rb) == (head + ra) + rb;
    }
  }

  /** Positions all lying before `base` remove nothing. */
  lemma {:induction false} DropPositionsNone<T>(s: seq<T>, P: set<nat>, base: nat)
    requires forall p :: p in P ==> p < base
    ensures DropPositionsFrom(s, P, base) == s
    decreases |s|
  {
    if s != [] {
      DropPositionsNone(s[1..], P, base + 1);
      assert s == [s[0]] + s[1..];
    }
  }

  /** A position beyond the end of the range removes nothing. */
  lemma {:induction false} DropPositionsBeyond<T>(s: seq<T>, P: set<nat>, i: nat, base: nat)
    requires base + |s| <= i
    ensures DropPositionsFrom(s, P + {i}, base) == DropPositionsFrom(s, P, base)
    decreases |s|
  {
    if s != [] {
      DropPositionsBeyond(s[1..], P, i, base + 1);
    }
  }

  /** Removing position `i` and then the positions `Q` below it is removing `Q + {i}`. */
  lemma RemoveAtThenDrop<T>(s: seq<T>, i: nat, Q: set<nat>)
    requires i < |s|
    requires forall q :: q in Q ==> q < i
    ensures DropPositions(RemoveAt(s, i), Q) == DropPositions(s, Q + {i})
  {
    var a, b := s[..i], s[i + 1..];
    DropSplitAt(s, i, Q + {i});
    DropPositionsBeyond(a, Q, i, 0);
    DropPositionsNone(b, Q + {i}, i + 1);
    DropSplitAround(a, b, Q);
  }

  /** Dropping a set that holds `i` splits `s` around position `i`. */
  lemma DropSplitAt<T>(s: seq<T>, i: nat, P: set<nat>)
    requires i < |s| && i in P
    ensures DropPositions(s, P) == DropPositionsFrom(s[..i], P, 0) + DropPositionsFrom(s[i + 1..], P, i + 1)
  {
    var a, b := s[..i], s[i + 1..];
    assert s == a + ([s[i]] + b);
    DropPositionsAppend(a, [s[i]] + b, P, 0);
    DropPositionsAppend([s[i]], b, P, i);
    DropHit(s[i], P, i);
  }

  /** With every dropped position below `|a|`, the part after `a` survives whole. */
  lemma DropSplitAround<T>(a: seq<T>, b: seq<T>, Q: set<nat>)
    requires forall q :: q in Q ==> q < |a|
    ensures DropPositions(a + b, Q) == DropPositionsFrom(a, Q, 0) + b
  {
    DropPositionsAppend(a, b, Q, 0);
    DropPositionsNone(b, Q, |a|);
  }

  lemma DropHit<T>(x: T, P: set<nat>, i: nat)
    requires i in P
    ensures DropPositionsFrom([x], P, i) == []
  {
  }

  /** Every element at a position outside `P` survives. */
  lemma {:induction false} DropPositionsKeeps<T>(s: seq<T>, P: set<nat>, base: nat)
    ensures forall k :: 0 <= k < |s| && base + k !in P ==> s[k] in DropPositionsFrom(s, P, base)
    decreases |s|
  {
    if s != [] {
      DropPositionsKeeps(s[1..], P, base + 1);
      forall k | 1 <= k < |s|
        ensures s[k] == s[1..][k - 1]
      {
      }
    }
  }
}

=== FILE: table_sort.dfy ===
/** Client-side column sort of the table: the header-click state machine and
    Python's stable `sorted(.., key=.., reverse=..)`. */
module TableSort {
  import opened Wrappers
  import opened Text
  import opened Books

  /** The sorted column (none before the first click) and the direction flag. */
  datatype SortState = SortState(column: Option<Column>, reverse: bool)

  /** The state before any header click. */
  const Unsorted := SortState(None, false)

  /** A header click: the column already sorted flips the direction; any other
      column becomes the sorted one, ascending. */
  function Toggle(st: SortState, col: Column): (r: SortState)
    ensures r.column == Some(col)
    ensures st.column == Some(col) ==> r.reverse == !st.reverse
    ensures st.column != Some(col) ==> !r.reverse
  {
    if st.column == Some(col) then SortState(st.column, !st.reverse) else SortState(Some(col), false)
  }

  /** `a` may precede `b`: ascending, or descending when `reverse`. */
  predicate Ordered(a: string, b: string, reverse: bool)
  {
    if reverse then LexLe(b, a) else LexLe(a, b)
  }

  lemma OrderedTotal(a: string, b: string, reverse: bool)
    ensures Ordered(a, b, reverse) || Ordered(b, a, reverse)
    ensures Ordered(a, a, reverse)
  {
    LexLeTotal(a, b);
    LexLeRefl(a);
  }

  lemma OrderedTrans(a: string, b: string, c: string, reverse: bool)
    requires Ordered(a, b, reverse) && Ordered(b, c, reverse)
    ensures Ordered(a, c, reverse)
  {
    if reverse { LexLeTrans(c, b, a); } else { LexLeTrans(a, b, c); }
  }

  /** Every earlier element may precede every later one. */
  ghost predicate SortedBy<T>(s: seq<T>, key: T -> string, reverse: bool)
  {
    forall i, j :: 0 <= i < j < |s| ==> Ordered(key(s[i]), key(s[j]), reverse)
  }

  /** The elements whose key is `k`, in order. */
  function Ties<T>(s: seq<T>, key: T -> string, k: string): seq<T>
  {
    if s == [] then [] else (if key(s[0]) == k then [s[0]] else []) + Ties(s[1..], key, k)
  }

  /** Places `x` before the first element it may precede; `x` goes ahead of
      elements with an equal key. */
  function Insert<T>(x: T, ys: seq<T>, key: T -> string, reverse: bool): seq<T>
  {
    if ys == [] then [x]
    else if Ordered(key(x), key(ys[0]), reverse) then [x] + ys
    else [ys[0]] + Insert(x, ys[1..], key, reverse)
  }

  lemma {:induction false} InsertPermutes<T>(x: T, ys: seq<T>, key: T -> string, reverse: bool)
    ensures multiset(Insert(x, ys, key, reverse)) == multiset([x] + ys)
    decreases |ys|
  {
    if ys != [] && !Ordered(key(x), key(ys[0]), reverse) {
      InsertPermutes(x, ys[1..], key, reverse);
      assert ys == [ys[0]] + ys[1..];
    }
  }

  lemma {:induction false} InsertSorted<T>(x: T, ys: seq<T>, key: T -> string, reverse: bool)
    requires SortedBy(ys, key, reverse)
    ensures SortedBy(Insert(x, ys, key, reverse), key, reverse)
    decreases |ys|
  {
    if ys == [] {
    } else if Ordered(key(x), key(ys[0]), reverse) {
      var r := [x] + ys;
      forall i, j | 0 <= i < j < |r|
        ensures Ordered(key(r[i]), key(r[j]), reverse)
      {
        if i == 0 && j > 1 {
          OrderedTrans(key(x), key(ys[0]), key(ys[j - 1]), reverse);
        }
      }
    } else {
      OrderedTotal(key(x), key(ys[0]), reverse);
      var rest := Insert(x, ys[1..], key, reverse);
      InsertSorted(x, ys[1..], key, reverse);
      InsertPermutes(x, ys[1..], key, reverse);
      var r := [ys[0]] + rest;
      forall i, j | 0 <= i < j < |r|
        ensures Ordered(key(r[i]), key(r[j]), reverse)
      {
        if i == 0 {
          assert r[j] in multiset([x] + ys[1..]);
          if r[j] != x {
            var k :| 0 <= k < |ys[1..]| && ys[1..][k] == r[j];
            assert ys[k + 1] == r[j];
          }
        }
      }
    }
  }

  /** Inserting `x` in front of its equal-key neighbours keeps every group of
      equal keys in its original order, with `x` first. */
  lemma {:induction false} InsertTies<T>(x: T, ys: seq<T>, key: T -> string, reverse: bool)
    ensures forall k :: Ties(Insert(x, ys, key, reverse), key, k) == Ties([x] + ys, key, k)
    decreases |ys|
  {
    if ys != [] && !Ordered(key(x), key(ys[0]), reverse) {
      OrderedTotal(key(x), key(x), reverse);
      assert key(x) != key(ys[0]);
      InsertTies(x, ys[1..], key, reverse);
      forall k
        ensures Ties(Insert(x, ys, key, reverse), key, k) == Ties([x] + ys, key, k)
      {
        var rest := Insert(x, ys[1..], key, reverse);
        assert ([ys[0]] + rest)[1..] == rest;
        assert ([x] + ys)[1..] == ys;
        assert ([x] + ys[1..])[1..] == ys[1..];
      }
    }
  }

  /** Python's `sorted(s, key=key, reverse=reverse)`: a permutation of `s`,
      ordered by key in the chosen direction, and stable: elements with equal
      keys keep their relative order in both directions. */
  function SortRows<T>(s: seq<T>, key: T -> string, reverse: bool): (r: seq<T>)
    ensures multiset(r) == multiset(s)
    ensures SortedBy(r, key, reverse)
    ensures forall k :: Ties(r, key, k) == Ties(s, key, k)
  {
    if s == [] then []
    else
      var rest := SortRows(s[1..], key, reverse);
      InsertPermutes(s[0], rest, key, reverse);
      InsertSorted(s[0], rest, key, reverse);
      InsertTies(s[0], rest, key, reverse);
      assert s == [s[0]] + s[1..];
      assert forall k :: Ties([s[0]] + rest, key, k) == Ties(s, key, k) by {
        forall k
          ensures Ties([s[0]] + rest, key, k) == Ties(s, key, k)
        {
          assert ([s[0]] + rest)[1..] == rest;
        }
      }
      Insert(s[0], rest, key, reverse)
  }

  /** When every element has the same key, ties are the whole sequence. */
  lemma {:induction false} TiesOfUniformKey<T>(s: seq<T>, key: T -> string, k: string)
    requires forall i :: 0 <= i < |s| ==> key(s[i]) == k
    ensures Ties(s, key, k) == s
    decreases |s|
  {
    if s != [] {
      TiesOfUniformKey(s[1..], key, k);
    }
  }

  /** Sorting on a key all rows share leaves them in place, in either direction. */
  lemma SortUniformKeyIsIdentity<T>(s: seq<T>, key: T -> string, k: string, reverse: bool)
    requires forall i :: 0 <= i < |s| ==> key(s[i]) == k
    ensures SortRows(s, key, reverse) == s
  {
    var r := SortRows(s, key, reverse);
    TiesOfUniformKey(s, key, k);
    forall i | 0 <= i < |r|
      ensures key(r[i]) == k
    {
      assert r[i] in multiset(s);
    }
    TiesOfUniformKey(r, key, k);
  }
}

=== FILE: table_view.dfy ===
/** The table window shared by the editor and the viewer: the status line,
    header-click sorting and the multi-row delete of the editor. */
module TableView {
  import opened Wrappers
  import opened Seqs
  import opened Text
  import opened Books
  import opened TableSort
  import Filtering
  import LibraryManager

  /** The status bar: the plain total when every record is on screen, the
      filtered count beside it otherwise. */
  datatype Status = Total(total: nat) | Filtered(displayed: nat, total: nat)

  function UpdateStatus(displayed: nat, total: nat): (st: Status)
    ensures st.Total? <==> displayed == total
    ensures st.total == total
    ensures st.Filtered? ==> st.displayed == displayed
  {
    if displayed == total then Total(total) else Filtered(displayed, total)
  }

  /** After a filter the status bar shows the plain total exactly when the
      filter admits every record of the store. */
  lemma FilteredStatus(s: Store, c: Filtering.Criteria)
    ensures UpdateStatus(|Filtering.FilterRecords(s, c)|, |s|).Total?
        <==> forall i :: 0 <= i < |s| ==> Filtering.Matches(s[i], c)
  {
    Filtering.ChainIsConjunction(s, c);
    KeepFullLength(s, (x: Record) => Filtering.Matches(x, c));
  }

  /** The rows on screen with the sort state of the headers. */
  datatype Table = Table(data: seq<Record>, sort: SortState)

  /** `str(x[col]).lower()`, with a missing cell read as the empty string. */
  function ColumnKey(col: Column): Record -> string
  {
    (x: Record) => Lower(OrEmpty(Field(x, col)))
  }

  /** A header click: toggles the sort state, then re-sorts the rows on screen
      by the lower-cased column text, keeping rows with equal text in their
      current order. */
  function SortByColumn(t: Table, col: Column): (r: Table)
    ensures r.sort == Toggle(t.sort, col)
    ensures multiset(r.data) == multiset(t.data)
    ensures SortedBy(r.data, ColumnKey(col), r.sort.reverse)
    ensures forall k :: Ties(r.data, ColumnKey(col), k) == Ties(t.data, ColumnKey(col), k)
  {
    var st := Toggle(t.sort, col);
    Table(SortRows(t.data, ColumnKey(col), st.reverse), st)
  }

  /** Sorting never changes what the status bar says. */
  lemma SortKeepsStatus(t: Table, col: Column, total: nat)
    ensures UpdateStatus(|SortByColumn(t, col).data|, total) == UpdateStatus(|t.data|, total)
  {
    var r := SortByColumn(t, col);
    assert |multiset(r.data)| == |multiset(t.data)|;
  }

  /** Clicking twice on a column whose rows all show the same text does not
      reverse them: the second, descending sort is stable too. */
  lemma RepeatedClickKeepsTies(a: Record, b: Record, col: Column)
    requires ColumnKey(col)(a) == ColumnKey(col)(b)
    ensures var once := SortByColumn(Table([a, b], Unsorted), col);
            var twice := SortByColumn(once, col);
            twice.sort.reverse && twice.data == [a, b]
  {
    var k := ColumnKey(col)(a);
    SortUniformKeyIsIdentity([a, b], ColumnKey(col), k, false);
    SortUniformKeyIsIdentity([a, b], ColumnKey(col), k, true);
  }

  /** The store position of the first record matching each selected ISBN, in
      selection order; an ISBN that matches nothing contributes no position and
      a repeated ISBN repeats its position. */
  function ResolvePositions(s: Store, isbns: seq<string>): (r: seq<nat>)
    ensures |r| <= |isbns|
    ensures forall j :: 0 <= j < |r| ==> r[j] < |s|
  {
    if isbns == [] then []
    else
      var rest := ResolvePositions(s, isbns[1..]);
      match FindByIsbn(s, isbns[0])
      case None => rest
      case Some(i) => [i] + rest
  }

  /** A position is resolved exactly when it is the first match of a selected ISBN. */
  lemma {:induction false} ResolvedAreFirstMatches(s: Store, isbns: seq<string>, p: nat)
    ensures p in ResolvePositions(s, isbns) <==> exists m :: 0 <= m < |isbns| && FindByIsbn(s, isbns[m]) == Some(p)
    decreases |isbns|
  {
    if isbns != [] {
      ResolvedAreFirstMatches(s, isbns[1..], p);
      if exists m :: 0 <= m < |isbns| && FindByIsbn(s, isbns[m]) == Some(p) {
        var m :| 0 <= m < |isbns| && FindByIsbn(s, isbns[m]) == Some(p);
        if m > 0 {
          assert isbns[1..][m - 1] == isbns[m];
        }
      }
      if exists m :: 0 <= m < |isbns[1..]| && FindByIsbn(s, isbns[1..][m]) == Some(p) {
        var m :| 0 <= m < |isbns[1..]| && FindByIsbn(s, isbns[1..][m]) == Some(p);
        assert isbns[m + 1] == isbns[1..][m];
      }
    }
  }

  /** The position a selected ISBN resolves to; 0 stands in when nothing matches. */
  function FirstPos(s: Store, isbn: string): nat
  {
    match FindByIsbn(s, isbn)
    case Some(i) => i
    case None => 0
  }

  /** Resolution contributes one position for every selected ISBN that
      matches a record, in selection order and with repeats: the first
      match of that ISBN. */
  lemma {:induction false} ResolveEachSelection(s: Store, isbns: seq<string>)
    ensures ResolvePositions(s, isbns)
            == Map((k: string) => FirstPos(s, k), Keep(isbns, (k: string) => FindByIsbn(s, k).Some?))
    decreases |isbns|
  {
    if isbns != [] {
      ResolveEachSelection(s, isbns[1..]);
      var f := (k: string) => FirstPos(s, k);
      var rest := Keep(isbns[1..], (k: string) => FindByIsbn(s, k).Some?);
      assert Map(f, [isbns[0]] + rest) == [f(isbns[0])] + Map(f, rest);
    }
  }

  /** Places `x` before the first element not greater than it. */
  function InsertDescending(x: nat, ys: seq<nat>): seq<nat>
  {
    if ys == [] || x >= ys[0] then [x] + ys else [ys[0]] + InsertDescending(x, ys[1..])
  }

  /** Largest first. */
  predicate Descending(xs: seq<nat>)
  {
    forall i, j :: 0 <= i < j < |xs| ==> xs[i] >= xs[j]
  }

  lemma {:induction false} InsertDescendingPermutes(x: nat, ys: seq<nat>)
    ensures multiset(InsertDescending(x, ys)) == multiset([x] + ys)
    decreases |ys|
  {
    if ys != [] && x < ys[0] {
      InsertDescendingPermutes(x, ys[1..]);
      assert ys == [ys[0]] + ys[1..];
    }
  }

  lemma {:induction false} InsertDescendingSorted(x: nat, ys: seq<nat>)
    requires Descending(ys)
    ensures Descending(InsertDescending(x, ys))
    decreases |ys|
  {
    if ys != [] && x < ys[0] {
      InsertDescendingSorted(x, ys[1..]);
      InsertDescendingPermutes(x, ys[1..]);
      var rest := InsertDescending(x, ys[1..]);
      var r := [ys[0]] + rest;
      forall i, j | 0 <= i < j < |r|
        ensures r[i] >= r[j]
      {
        if i == 0 {
          assert r[j] in multiset([x] + ys[1..]);
          if r[j] != x {
            var k :| 0 <= k < |ys[1..]| && ys[1..][k] == r[j];
            assert ys[k + 1] == r[j];
          }
        }
      }
    }
  }

  /** `sorted(positions, reverse=True)`: the same positions, largest first. */
  function SortDescending(xs: seq<nat>): (r: seq<nat>)
    ensures multiset(r) == multiset(xs)
    ensures Descending(r)
  {
    if xs == [] then []
    else
      var rest := SortDescending(xs[1..]);
      InsertDescendingPermutes(xs[0], rest);
      InsertDescendingSorted(xs[0], rest);
      assert xs == [xs[0]] + xs[1..];
      InsertDescending(xs[0], rest)
  }

  /** The store left behind by a run of deletions, and the error that stopped
      the run early if any. Deletions made before the error are kept, as each
      `delete_record` call saves the file at once. */
  datatype Deletion = Deletion(store: Store, failure: Option<Error>)

  /** `delete_record(i)` for each position in turn, stopping at the first error. */
  function DeleteEach(s: Store, positions: seq<nat>): (d: Deletion)
    ensures d.failure.None? ==> |d.store| + |positions| == |s|
    ensures d.failure.Some? ==> d.failure.value.InvalidIndex?
  {
    if positions == [] then Deletion(s, None)
    else
      match LibraryManager.DeleteRecord(s, positions[0])
      case Err(e) => Deletion(s, Some(e))
      case Ok(s') => DeleteEach(s', positions[1..])
  }

  /** The editor's delete as written: resolve every selected ISBN to its first
      matching position, sort the positions largest first, delete each. */
  function DeleteBooksAsWritten(s: Store, isbns: seq<string>): (d: Deletion)
    ensures d.failure.None? ==> |d.store| + |ResolvePositions(s, isbns)| == |s|
    ensures d.failure.None? ==> |d.store| + |Keep(isbns, (k: string) => FindByIsbn(s, k).Some?)| == |s|
  {
    ResolveEachSelection(s, isbns);
    var order := SortDescending(ResolvePositions(s, isbns));
    assert |multiset(order)| == |order|;
    DeleteEach(s, order)
  }

  /** A record with only an ISBN and a Signature. */
  function Book(isbn: string, signature: string): Record
  {
    Record(Some(isbn), None, None, None, None, Some(signature), None, None)
  }

  lemma ResolveTwice(s: Store)
    requires |s| > 0 && s[0].isbn == Some("1")
    ensures ResolvePositions(s, ["1", "1"]) == [0, 0]
  {
  }

  lemma DeleteZeroTwice(s: Store)
    requires |s| == 3
    ensures DeleteEach(s, SortDescending([0, 0])) == Deletion([s[2]], None)
  {
    assert SortDescending([0, 0]) == [0, 0] by {
      assert [0, 0][1..] == [0];
      assert [0][1..] == [];
    }
    assert [0, 0][1..] == [0];
    assert [0][1..] == [];
    var s1 := RemoveAt(s, 0);
    assert s1 == [s[1], s[2]];
    var s2 := RemoveAt(s1, 0);
    assert s2 == [s[2]];
    assert LibraryManager.DeleteRecord(s, 0) == Ok(s1);
    assert LibraryManager.DeleteRecord(s1, 0) == Ok(s2);
    assert DeleteEach(s2, []) == Deletion(s2, None);
    assert DeleteEach(s1, [0]) == Deletion(s2, None);
  }

  /** Two selected rows sharing ISBN "1" both resolve to the first of them, so
      that record is deleted once and the next deletion at the same position
      removes its unselected neighbour, while the second selected record stays. */
  lemma DuplicateIsbnDeletesNeighbour()
    ensures var x, z, y := Book("1", "X"), Book("2", "Z"), Book("1", "Y");
            DeleteBooksAsWritten([x, z, y], ["1", "1"]) == Deletion([y], None)
  {
    var x, z, y := Book("1", "X"), Book("2", "Z"), Book("1", "Y");
    ResolveTwice([x, z, y]);
    DeleteZeroTwice([x, z, y]);
  }

  /** The positions of the selected records, each once. */
  function Positions(s: Store, isbns: seq<string>): (P: set<nat>)
    ensures forall p :: p in P <==> exists m :: 0 <= m < |isbns| && FindByIsbn(s, isbns[m]) == Some(p)
    ensures forall p :: p in P ==> p < |s|
  {
    var P := ElementSet(ResolvePositions(s, isbns));
    forall p: nat
      ensures p in P <==> exists m :: 0 <= m < |isbns| && FindByIsbn(s, isbns[m]) == Some(p)
    {
      ResolvedAreFirstMatches(s, isbns, p);
    }
    P
  }

  /** The positions of `P` below `n`, each once, largest first. */
  function DescendingPositions(P: set<nat>, n: nat): (r: seq<nat>)
    ensures forall i, j :: 0 <= i < j < |r| ==> r[i] > r[j]
    ensures forall x :: x in r <==> x in P && x < n
    ensures forall j :: 0 <= j < |r| ==> r[j] < n
  {
    if n == 0 then []
    else
      var rest := DescendingPositions(P, n - 1);
      if n - 1 in P then
        var r := [n - 1] + rest;
        assert forall j :: 1 <= j < |r| ==> r[j] == rest[j - 1];
        assert forall x :: x in r <==> x == n - 1 || x in rest;
        r
      else rest
  }

  /** The positions listed in `xs`. */
  function ElementSet(xs: seq<nat>): (P: set<nat>)
    ensures forall x :: x in P <==> x in xs
  {
    if xs == [] then {}
    else
      assert forall x :: x in xs <==> x == xs[0] || x in xs[1..] by {
        assert xs == [xs[0]] + xs[1..];
      }
      {xs[0]} + ElementSet(xs[1..])
  }

  /** One deletion at a valid position, then the rest of the run. */
  lemma DeleteEachStep(s: Store, positions: seq<nat>)
    requires positions != [] && positions[0] < |s|
    ensures DeleteEach(s, positions) == DeleteEach(RemoveAt(s, positions[0]), positions[1..])
  {
  }

  /** Deleting at strictly decreasing positions never shifts a position still
      to be deleted, so the run removes exactly those positions. */
  lemma {:induction false} DeleteEachDescending(s: Store, positions: seq<nat>)
    requires forall i, j :: 0 <= i < j < |positions| ==> positions[i] > positions[j]
    requires forall j :: 0 <= j < |positions| ==> positions[j] < |s|
    ensures DeleteEach(s, positions) == Deletion(DropPositions(s, ElementSet(positions)), None)
    decreases |positions|
  {
    if positions == [] {
      DropPositionsNone(s, {}, 0);
    } else {
      var i := positions[0];
      var rest := positions[1..];
      var s' := RemoveAt(s, i);
      DeleteEachStep(s, positions);
      forall j | 0 <= j < |rest|
        ensures rest[j] < i
      {
        assert positions[j + 1] == rest[j];
      }
      DeleteEachDescending(s', rest);
      RemoveAtThenDrop(s, i, ElementSet(rest));
      assert ElementSet(positions) == ElementSet(rest) + {i};
    }
  }

  /** No position is listed twice. */
  predicate Distinct(xs: seq<nat>)
  {
    forall i, j :: 0 <= i < j < |xs| ==> xs[i] != xs[j]
  }

  /** A repeat-free sequence holds each value at most once. */
  lemma {:induction false} DistinctCountsOnce(xs: seq<nat>, x: nat)
    requires Distinct(xs)
    ensures multiset(xs)[x] <= 1
    decreases |xs|
  {
    if xs != [] {
      assert xs == [xs[0]] + xs[1..];
      assert Distinct(xs[1..]) by {
        forall i, j | 0 <= i < j < |xs[1..]|
          ensures xs[1..][i] != xs[1..][j]
        {
          assert xs[1..][i] == xs[i + 1] && xs[1..][j] == xs[j + 1];
        }
      }
      DistinctCountsOnce(xs[1..], x);
      if x == xs[0] {
        assert x !in xs[1..] by {
          forall j | 0 <= j < |xs[1..]|
            ensures xs[1..][j] != x
          {
            assert xs[1..][j] == xs[j + 1];
          }
        }
      }
    }
  }

  /** A value listed at two positions is counted at least twice. */
  lemma RepeatCountsTwice(xs: seq<nat>, i: nat, j: nat)
    requires i < j < |xs| && xs[i] == xs[j]
    ensures multiset(xs)[xs[i]] >= 2
  {
    assert xs == xs[..i] + [xs[i]] + xs[i + 1..j] + [xs[j]] + xs[j + 1..];
  }

  /** Sorting repeat-free positions largest first gives a strictly
      decreasing sequence of the same positions. */
  lemma DistinctSortIsStrict(xs: seq<nat>)
    requires Distinct(xs)
    ensures forall i, j :: 0 <= i < j < |SortDescending(xs)| ==> SortDescending(xs)[i] > SortDescending(xs)[j]
    ensures forall p :: p in SortDescending(xs) <==> p in xs
  {
    var order := SortDescending(xs);
    forall i, j | 0 <= i < j < |order|
      ensures order[i] > order[j]
    {
      if order[i] == order[j] {
        RepeatCountsTwice(order, i, j);
        DistinctCountsOnce(xs, order[i]);
        assert false;
      }
    }
    forall p
      ensures p in order <==> p in xs
    {
      assert p in order <==> p in multiset(xs);
    }
  }

  /** Sorting keeps every position below a bound that held before. */
  lemma SortKeepsBound(xs: seq<nat>, n: nat)
    requires forall j :: 0 <= j < |xs| ==> xs[j] < n
    ensures forall j :: 0 <= j < |SortDescending(xs)| ==> SortDescending(xs)[j] < n
  {
    var order := SortDescending(xs);
    forall j | 0 <= j < |order|
      ensures order[j] < n
    {
      assert order[j] in multiset(xs);
    }
  }

  /** When the selected ISBNs resolve to distinct positions, the delete as
      written removes exactly the records at those positions and never
      fails: it agrees with the corrected delete. The two differ only when
      two selections share a first match. */
  lemma AsWrittenAgreesWhenDistinct(s: Store, isbns: seq<string>)
    requires Distinct(ResolvePositions(s, isbns))
    ensures DeleteBooksAsWritten(s, isbns) == Deletion(DeleteBooks(s, isbns), None)
  {
    var rp := ResolvePositions(s, isbns);
    var order := SortDescending(rp);
    DistinctSortIsStrict(rp);
    SortKeepsBound(rp, |s|);
    DeleteEachDescending(s, order);
    assert ElementSet(order) == Positions(s, isbns) by {
      forall p: nat
        ensures p in ElementSet(order) <==> p in Positions(s, isbns)
      {
        ResolvedAreFirstMatches(s, isbns, p);
      }
    }
  }

  /** The delete as evidently intended: every selected record is removed
      exactly once, by position, and every other record stays in order. */
  function DeleteBooks(s: Store, isbns: seq<string>): (r: Store)
    ensures r == DropPositions(s, Positions(s, isbns))
    ensures forall k :: 0 <= k < |s| && k !in Positions(s, isbns) ==> s[k] in r
  {
    var P := Positions(s, isbns);
    var order := DescendingPositions(P, |s|);
    DeleteEachDescending(s, order);
    assert ElementSet(order) == P;
    DropPositionsKeeps(s, P, 0);
    DeleteEach(s, order).store
  }
}

=== FILE: text.dfy ===
/** The string primitives the stores rely on: Python's `str.strip()`,
    ASCII lowercasing (`str.lower()`, SQLite's case-insensitive `LIKE`),
    substring search and `str.split(',')`. */
module Text {

  /** Characters Python's `str.strip()` removes, restricted to ASCII:
      tab, line feed, vertical tab, form feed, carriage return,
      the four separators 0x1C-0x1F and the space. */
  predicate IsSpace(c: char)
  {
    9 <= c as int <= 13 || 28 <= c as int <= 32
  }

  /** Neither empty nor starting or ending with whitespace: what a strip leaves
      of a string that is not all whitespace. */
  predicate Stripped(s: string)
  {
    s != [] && !IsSpace(s[0]) && !IsSpace(s[|s| - 1])
  }

  /** No comma in `s`. */
  predicate CommaFree(s: string)
  {
    ',' !in s
  }

  /** `s` without its leading whitespace. */
  function TrimLeft(s: string): (r: string)
    ensures |r| <= |s|
    ensures r == [] || !IsSpace(r[0])
  {
    if s != [] && IsSpace(s[0]) then TrimLeft(s[1..]) else s
  }

  /** `s` without its trailing whitespace. */
  function TrimRight(s: string): (r: string)
    ensures |r| <= |s|
    ensures r == [] || !IsSpace(r[|r| - 1])
  {
    if s != [] && IsSpace(s[|s| - 1]) then TrimRight(s[..|s| - 1]) else s
  }

  /** What `TrimLeft` removes is a run of whitespace at the front. */
  lemma {:induction false} TrimLeftSuffix(s: string)
    ensures var r := TrimLeft(s);
            r == s[|s| - |r|..] && forall i :: 0 <= i < |s| - |r| ==> IsSpace(s[i])
    decreases |s|
  {
    if s != [] && IsSpace(s[0]) {
      TrimLeftSuffix(s[1..]);
    }
  }

  /** What `TrimRight` removes is a run of whitespace at the back. */
  lemma {:induction false} TrimRightPrefix(s: string)
    ensures var r := TrimRight(s);
            r == s[..|r|] && forall i :: |r| <= i < |s| ==> IsSpace(s[i])
    decreases |s|
  {
    if s != [] && IsSpace(s[|s| - 1]) {
      TrimRightPrefix(s[..|s| - 1]);
    }
  }

  /** Python's `s.strip()`: empty, or a string that neither starts nor ends
      with whitespace (see `TrimRemovesOnlyEdges` and `TrimBlank` for what it keeps). */
  function Trim(s: string): (r: string)
    ensures |r| <= |s|
    ensures r == [] || Stripped(r)
  {
    var l := TrimLeft(s);
    TrimRightPrefix(l);
    TrimRight(l)
  }

  /** The strip is the slice of `s` left once the whitespace at both ends is
      removed: everything before and after it is whitespace. */
  lemma TrimRemovesOnlyEdges(s: string)
    ensures exists i :: && OccursAt(s, Trim(s), i)
                        && (forall k :: 0 <= k < i ==> IsSpace(s[k]))
                        && (forall k :: i + |Trim(s)| <= k < |s| ==> IsSpace(s[k]))
  {
    var l := TrimLeft(s);
    var r := TrimRight(l);
    TrimLeftSuffix(s);
    TrimRightPrefix(l);
    assert Trim(s) == r;
    var i := |s| - |l|;
    assert r == s[i..][..|r|];
    assert s[i..][..|r|] == s[i..i + |r|];
    assert OccursAt(s, r, i);
    forall k | i + |r| <= k < |s|
      ensures IsSpace(s[k])
    {
      assert s[k] == l[k - i];
    }
  }

  lemma TrimRightKeepsFirst(s: string)
    requires s != [] && !IsSpace(s[0])
    ensures TrimRight(s) != []
  {
  }

  /** The strip is empty exactly when `s` is all whitespace. */
  lemma TrimBlank(s: string)
    ensures Trim(s) == [] <==> forall i :: 0 <= i < |s| ==> IsSpace(s[i])
  {
    var l := TrimLeft(s);
    TrimLeftSuffix(s);
    TrimRightPrefix(l);
    if l != [] {
      TrimRightKeepsFirst(l);
    }
    if Trim(s) != [] {
      assert l != [];
      assert s[|s| - |l|] == l[0];
    }
  }

  /** ASCII lowercasing of one character; everything outside `A`-`Z` is kept. */
  function LowerChar(c: char): char
  {
    if 'A' <= c <= 'Z' then (c as int + 32) as char else c
  }

  /** ASCII lowercasing of a string. */
  function Lower(s: string): (r: string)
    ensures |r| == |s|
    ensures forall i :: 0 <= i < |s| ==> r[i] == LowerChar(s[i])
  {
    seq(|s|, i requires 0 <= i < |s| => LowerChar(s[i]))
  }

  /** `needle` occurs in `hay` starting at position `i`. */
  predicate OccursAt(hay: string, needle: string, i: int)
  {
    0 <= i && i + |needle| <= |hay| && hay[i..i + |needle|] == needle
  }

  /** Substring test (`needle in hay`). */
  predicate Contains(hay: string, needle: string)
  {
    exists i | 0 <= i <= |hay| - |needle| :: OccursAt(hay, needle, i)
  }

  /** Case-insensitive substring test, as `str.contains(.., case=False)` and
      `LIKE '%needle%'` do for ASCII text. */
  predicate ContainsIgnoreCase(hay: string, needle: string)
  {
    Contains(Lower(hay), Lower(needle))
  }

  /** Rejoins comma-separated pieces: the inverse of `SplitCommas`. */
  function JoinCommas(parts: seq<string>): string
    requires |parts| >= 1
    decreases |parts|
  {
    if |parts| == 1 then parts[0] else parts[0] + "," + JoinCommas(parts[1..])
  }

  /** Python's `s.split(',')`: at least one piece, none containing a comma,
      and joining the pieces with commas gives back `s`. */
  function SplitCommas(s: string): (parts: seq<string>)
    ensures |parts| >= 1
    ensures forall i :: 0 <= i < |parts| ==> CommaFree(parts[i])
    ensures JoinCommas(parts) == s
    decreases |s|
  {
    if s == [] then [[]]
    else
      var rest := SplitCommas(s[1..]);
      if s[0] == ',' then
        assert ([[]] + rest)[1..] == rest;
        [[]] + rest
      else
        var parts := [[s[0]] + rest[0]] + rest[1..];
        assert |rest| > 1 ==> parts[1..] == rest[1..] && JoinCommas(rest) == rest[0] + "," + JoinCommas(rest[1..]);
        assert forall i :: 1 <= i < |parts| ==> parts[i] == rest[i];
        parts
  }

  /** Splitting a comma-join of comma-free pieces recovers the pieces. */
  lemma {:induction false} SplitJoin(parts: seq<string>)
    requires |parts| >= 1
    requires forall i :: 0 <= i < |parts| ==> CommaFree(parts[i])
    ensures SplitCommas(JoinCommas(parts)) == parts
    decreases |parts|, |parts[0]|
  {
    if |parts| == 1 {
      NoCommaSplit(parts[0]);
    } else if parts[0] == [] {
      var tail := parts[1..];
      SplitJoin(tail);
      SplitLeadingComma(tail);
      assert parts == [[]] + tail;
    } else {
      var c := parts[0][0];
      var shorter := [parts[0][1..]] + parts[1..];
      assert c in parts[0];
      assert forall i :: 1 <= i < |shorter| ==> shorter[i] == parts[i];
      assert forall x :: x in shorter[0] ==> x in parts[0];
      SplitJoin(shorter);
      SplitLeadingChar(c, shorter);
      assert parts[0] == [c] + shorter[0];
      assert shorter[1..] == parts[1..];
      assert parts == [parts[0]] + parts[1..];
    }
  }

  /** One step of `SplitCommas` on a leading character other than a comma. */
  lemma SplitAtChar(c: char, t: string)
    requires c != ','
    ensures SplitCommas([c] + t) == [[c] + SplitCommas(t)[0]] + SplitCommas(t)[1..]
  {
  }

  lemma SplitLeadingComma(tail: seq<string>)
    requires |tail| >= 1 && SplitCommas(JoinCommas(tail)) == tail
    ensures SplitCommas(JoinCommas([[]] + tail)) == [[]] + tail
  {
  }

  lemma JoinLeadingChar(c: char, parts: seq<string>)
    requires |parts| >= 1
    ensures JoinCommas([[c] + parts[0]] + parts[1..]) == [c] + JoinCommas(parts)
  {
  }

  lemma SplitLeadingChar(c: char, parts: seq<string>)
    requires c != ','
    requires |parts| >= 1 && SplitCommas(JoinCommas(parts)) == parts
    ensures SplitCommas(JoinCommas([[c] + parts[0]] + parts[1..])) == [[c] + parts[0]] + parts[1..]
  {
    JoinLeadingChar(c, parts);
    SplitAtChar(c, JoinCommas(parts));
  }

  /** A comma-free string splits into itself. */
  lemma NoCommaSplit(s: string)
    requires CommaFree(s)
    ensures SplitCommas(s) == [s]
  {
  }

  /** Python's `a <= b` on strings: lexicographic by code point. */
  predicate LexLe(a: string, b: string)
    decreases |a|
  {
    a == [] || (b != [] && (a[0] < b[0] || (a[0] == b[0] && LexLe(a[1..], b[1..]))))
  }

  lemma {:induction false} LexLeRefl(a: string)
    ensures LexLe(a, a)
    decreases |a|
  {
    if a != [] {
      LexLeRefl(a[1..]);
    }
  }

  lemma {:induction false} LexLeTotal(a: string, b: string)
    ensures LexLe(a, b) || LexLe(b, a)
    decreases |a|
  {
    if a != [] && b != [] && a[0] == b[0] {
      LexLeTotal(a[1..], b[1..]);
    }
  }

  lemma {:induction false} LexLeTrans(a: string, b: string, c: string)
    requires LexLe(a, b) && LexLe(b, c)
    ensures LexLe(a, c)
    decreases |a|
  {
    if a != [] && b != [] && c != [] && a[0] == b[0] == c[0] {
      LexLeTrans(a[1..], b[1..], c[1..]);
    }
  }

  /** A string without whitespace at either end is its own strip. */
  lemma TrimUnchanged(s: string)
    requires Stripped(s)
    ensures Trim(s) == s
  {
  }

  /** A leading space does not survive a strip. */
  lemma TrimLeadingSpace(s: string)
    ensures Trim(" " + s) == Trim(s)
  {
  }

  /** A character absent from `s` is absent from its strip. */
  lemma TrimExcludes(s: string, c: char)
    requires c !in s
    ensures c !in Trim(s)
  {
    var r := Trim(s);
    TrimRemovesOnlyEdges(s);
    var i :| OccursAt(s, r, i);
    forall k | 0 <= k < |r|
      ensures r[k] != c
    {
      assert r[k] == s[i + k];
    }
  }

  lemma TrimCommaFree(s: string)
    ensures CommaFree(s) ==> CommaFree(Trim(s))
  {
    if CommaFree(s) {
      TrimExcludes(s, ',');
    }
  }

  /** `x, y` splits on its comma into `x` and ` y`. */
  lemma SplitPair(x: string, y: string)
    requires CommaFree(x) && CommaFree(y)
    ensures SplitCommas(x + ", " + y) == [x, " " + y]
  {
    var parts := [x, " " + y];
    assert CommaFree(" " + y);
    assert parts[1..] == [" " + y];
    assert JoinCommas(parts) == x + ", " + y;
    SplitJoin(parts);
  }
}

=== FILE: viewer_data.dfy ===
/** `ViewerDataManager`: the read-only tab-separated backend of the Books Viewer. */
module ViewerData {
  import opened Wrappers
  import opened Seqs
  import opened Books
  import Filtering

  /** The viewer's frame `self.df`. */
  datatype Viewer = Viewer(records: seq<Record>)

  /** `load_data`: the parsed file, or an empty frame when the file is
      missing or cannot be parsed (`None`). */
  function LoadData(file: Option<seq<Record>>): (r: seq<Record>)
    ensures file.None? ==> r == []
    ensures file.Some? ==> r == file.value
  {
    match file
    case None => []
    case Some(rows) => rows
  }

  /** `get_all_records`: one tuple per row of the frame, in frame order. */
  function GetAllRecords(v: Viewer): (r: seq<Record>)
    ensures |r| == |v.records|
    ensures forall i :: 0 <= i < |r| ==> r[i] == v.records[i]
  {
    v.records
  }

  /** `filter_records`: filters a copy, so the viewer itself is untouched; the
      result is the matching records of `get_all_records`, in order and with
      their repeats, and the empty filter returns them all. */
  function FilterRecords(v: Viewer, c: Filtering.Criteria): (r: seq<Record>)
    ensures r == Keep(GetAllRecords(v), (x: Record) => Filtering.Matches(x, c))
    ensures Subseq(r, GetAllRecords(v))
    ensures forall i :: 0 <= i < |r| ==> Filtering.Matches(r[i], c)
    ensures forall i :: 0 <= i < |v.records| && Filtering.Matches(v.records[i], c) ==> v.records[i] in r
    ensures c == Filtering.NoCriteria ==> r == GetAllRecords(v)
  {
    Filtering.FilterNothing(v.records);
    Filtering.FilterRecords(v.records, c)
  }

  /** `reload`: the records become what the file holds now, whatever was loaded before. */
  function Reload(v: Viewer, file: Option<seq<Record>>): (r: Viewer)
    ensures r.records == LoadData(file)
  {
    Viewer(LoadData(file))
  }

  /** After a reload the viewer shows exactly what the file holds now, or
      nothing for a missing or unreadable file, whatever it showed before;
      reloading the same file again changes nothing. */
  lemma ReloadShowsFile(v: Viewer, w: Viewer, file: Option<seq<Record>>)
    ensures file.Some? ==> GetAllRecords(Reload(v, file)) == file.value
    ensures file.None? ==> GetAllRecords(Reload(v, file)) == []
    ensures GetAllRecords(Reload(v, file)) == GetAllRecords(Reload(w, file))
    ensures Reload(Reload(v, file), file) == Reload(v, file)
  {
  }
}

=== FILE: wrappers.dfy ===
/** Failure-carrying datatypes used by every store operation. */
module Wrappers {

  /** A value that may be absent; `None` models Python's `None` and SQL `NULL`. */
  datatype Option<+T> = None | Some(value: T)

  /** The outcome of an operation that either succeeds with a value or raises an error. */
  datatype Result<+T, +E> = Ok(value: T) | Err(error: E)
}
